=== FILE: README.md ===
# circuitsim, modelled in Dafny

circuitsim drives an external HDL simulator (Icarus Verilog, Verilator or
VCS) over a combinational circuit. It turns Python dicts of logic values
into fixed-width lines of `0`/`1`/`x`, one line per vector. It splits the
vectors into contiguous chunks, one input file per worker slot, and runs
the compiled simulator once per slot. It then reads the slots' output
files back in slot order. It also writes the Verilog testbench that reads
and writes those files, and wraps everything in a `CircuitSimulator`
session that compiles lazily.

The model covers the data path around the simulator, in seven files:

- `types.dfy` (`Types`): logic values as a caller passes them (`bool`,
  `int`, `float`, `str`, anything else), decoded output values, and the exceptions
  the code raises, as one `Error` datatype. Python dicts are `Dict<V>`, a
  sequence of items with distinct keys in insertion order.
- `text.dfy` (`Text`): the `str` operations the code relies on:
  `strip` with Python's whitespace set, ASCII `lower`, `join`,
  substring `in`, and `str(n)` for integers.
- `codec.dfy` (`Codec`, `CodecRoundTrip`): `_convert_value`,
  `_convert_values`, the encoding of one vector into an input line with
  its missing-input error, and the parse of one output line. The round
  trip relates the two.
- `partition.dfy` (`Partition`): `ceil(len(vectors) / num_processes)`
  and the list of slices over `range(0, len(vectors), k)`, including the
  division by zero and the zero `range` step.
- `executor.dfy` (`Executor`): `execute_simulator` and
  `parse_simulation_output` over a working directory held as two maps
  from slot to lines. The line encoder, the line parser and the simulator
  run are parameters.
- `codegen.dfy` (`Codegen`): `_uniquify` (as a function and as the
  `while` loop) and `generate_testbench` as a pure text builder.
- `session.dfy` (`Session`): `CircuitSimulator`: construction checks,
  temporary-directory ownership, lazy one-time initialisation, the
  Verilator x-mode guard, and forwarding to the executor and the parser.
  `simulate` appears twice. `Session.SimulateAsWritten` composes the
  executor as the code has it. `Session.Simulate` composes the corrected
  executor of the Findings below. The two agree whenever the vectors fill
  every slot (`Session.SimulateAgreesWhenSlotsFilled`), which the test
  suite's calls always do (`Session.TestSuiteFillsSlots`).

The simulator itself is the function `Runner` from a slot's input file
(if any) to the output file it writes, or `None` when the process exits
non-zero. Compilation is an `Outcome`. `natsorted` is a `sort` parameter,
`is_cyclic` a field of `Circuit`, and the `uuid4` suffixes a `tokens`
parameter.

Three behaviours of the code that a reader might not expect:

- A missing input stops writing mid-chunk. By then the current chunk's
  input file already holds the lines of the vectors before it, and the
  files of earlier chunks are complete. `Executor.WriteInputs` keeps those
  lines. No output file is touched.
- The missing-input message is a constant text that names no input; see
  Findings.
- A failing run raises `CalledProcessError` out of the pool. Its command
  line names the slot's input and output files. When several slots fail,
  the pool re-raises whichever failure it collects, while the model
  reports the lowest failing slot as `ProcessFailed(slot)`.

## Model

| member | source | states |
|---|---|---|
| `Codec.ConvertValue` | circuitsim/simulators.py:30-37 | Accepted exactly: booleans, 0 and 1, the floats 0.0 and 1.0 (the list test compares with `==`), the substrings of `"01"` (so also `""` and `"01"`), and `"x"`/`"X"` in x-mode. The result is `"1"` exactly for `True`/`1`/`1.0`/`"1"`, `"0"` exactly for `False`/`0`/`0.0`/`"0"`, `"x"` exactly for `"x"`/`"X"` in x-mode. A non-string reaching `.lower()` in x-mode raises AttributeError; every other rejection is ValueError. |
| `Text.SubstringsOfBits` | circuitsim/simulators.py:33 | `v in "01"` holds for a string exactly when it is `""`, `"0"`, `"1"` or `"01"`. |
| `Codec.ConvertValues` | circuitsim/simulators.py:40-41 | Succeeds iff every value converts. The result keeps the keys in dict order and holds each value's conversion. On failure the error is that of the first value, in dict order, that fails. |
| `Codec.MissingNames` | circuitsim/simulators.py:144 | A name is listed iff it is an input with no key in the vector, and no name is listed twice. |
| `Codec.Truncate` | circuitsim/simulators.py:145-146 | The result is at most 20 characters long. A string of at most 20 is kept; a longer one becomes its first 17 characters followed by `...`. |
| `Codec.MissingMessage` | circuitsim/simulators.py:144-149 | Corrected: the message starts with the fixed prefix and ends with a quote. It is at most 21 characters longer than the prefix. When the comma-separated names fit in 20 characters, every missing name can be found in it. |
| `Codec.MissingMessageNamesInputs` | circuitsim/simulators.py:144-149 | The corrected message tells apart two different short name lists. |
| `Codec.EncodeVector` | circuitsim/simulators.py:139-149 | All values are converted before any key is looked up, so a bad value raises even when an input is missing. Otherwise a missing input raises ValueError with the corrected message `Codec.MissingMessage` of the missing names. The line is produced iff every input has a key and every value converts. |
| `Codec.LookupConverted` | circuitsim/simulators.py:140-142 | Reading an input from the converted dict gives the conversion of the caller's value for it. |
| `Codec.ConcatColumns` | circuitsim/simulators.py:142 | When every input's converted value is one character, the joined line has one character per input and character `i` is input `i`'s value. |
| `Codec.EncodeFixedWidth` | circuitsim/simulators.py:140-142 | Fixed width: when the value of every input converts to one character, the line is `len(inputs)` long and column `i` holds the converted value of `inputs[i]`. |
| `Codec.EmptyValueShortensLine` | circuitsim/simulators.py:33-34 | The value `""` is accepted, so a two-input vector can encode to a one-character line. |
| `Text.Strip` | circuitsim/simulators.py:205 | `strip()` keeps a slice that neither starts nor ends with whitespace, and everything cut off is whitespace. |
| `Codec.ParseLine` | circuitsim/simulators.py:204-213 | A line is accepted iff its stripped form uses only `0`/`1` (and `x`/`X` in x-mode); otherwise ValueError carrying the raw line. The result pairs output `i` with character `i` for as many pairs as the shorter of the two has. Outside x-mode a character decodes to `True` iff it is `1`; in x-mode to its lower case, one of `0`/`1`/`x`. |
| `CodecRoundTrip.EncodedColumns` | circuitsim/simulators.py:139-142 | When every port's value converts to one character (other keys may hold anything accepted), every character of the encoded line is in the output alphabet, and decodes to what that port's value should read back as. |
| `CodecRoundTrip.ParseExactLine` | circuitsim/simulators.py:204-213 | A line of one alphabet character per port parses to every port paired, in order, with its decoded character. |
| `CodecRoundTrip.DecodeConverted` | circuitsim/simulators.py:30-37 | A one-character conversion is `0`, `1` or `x`, and decodes to the value's truth value, or to `x` for `"x"`/`"X"`. |
| `CodecRoundTrip.RoundTrip` | circuitsim/simulators.py:207-212 | Encode then parse with the same port list, whatever other keys the vector holds: one entry per port, in port order, holding that port's value as the parse decodes it. |
| `CodecRoundTrip.BoolRoundTrip` | tests/test_simulation.py:24-32 | For boolean vectors with a key for every port, encoding succeeds and parsing gives every port its own boolean back, at its own index. |
| `Partition.CeilDiv` | circuitsim/simulators.py:131 | `ceil(n / m)` is the least `k` with `k * m >= n` for positive `m`, and the matching bound for negative `m`. |
| `Partition.CeilDivSign` | circuitsim/simulators.py:131-135 | For positive `m` the step is positive iff there is a vector. For negative `m` the step is never positive, and is zero iff there are fewer than `-m` vectors. |
| `Partition.Slice` | circuitsim/simulators.py:134 | Python's clamped slice: the elements from `i` up to `min(j, len)`, or nothing when the range is empty. |
| `Partition.SlicesShape` | circuitsim/simulators.py:133-136 | Chunk `j` is the slice from `j * k`, starts inside the vectors, and is non-empty. Every chunk but the last has exactly `k` elements. |
| `Partition.SlicesFlatten` | circuitsim/simulators.py:133-136 | Partition completeness: the chunks concatenate back to the vectors. |
| `Partition.ChunkCountBound` | circuitsim/simulators.py:131-135 | With `k = ceil(n / m)` there are at most `m` chunks. |
| `Partition.Chunks` | circuitsim/simulators.py:131-137 | `num_processes == 0` divides by zero. A zero step (no vectors, or fewer than `-m` of them) makes `range` raise. A negative step gives no chunks. Otherwise the chunks are non-empty and concatenate to the vectors. All but the last have `ceil(n / m)` elements, and there are at most `m` of them. |
| `Partition.FewerChunksThanProcesses` | circuitsim/simulators.py:131-136 | Five vectors over four processes make three chunks: `[1,2]`, `[3,4]`, `[5]`. |
| `Executor.MapUntilError` | circuitsim/simulators.py:139-149 | Writing lines until the first failure: it stops iff some element fails, exactly at the first failing element, with every earlier result kept. |
| `Executor.MapAll` | circuitsim/simulators.py:203-213 | A raising comprehension: it succeeds iff every element succeeds, with results in order; otherwise it returns the error of the first failing element. |
| `Executor.MapUntilErrorAppend` | circuitsim/simulators.py:138-149 | Processing two runs of elements one after the other equals processing their concatenation. |
| `Executor.WriteInputs` | circuitsim/simulators.py:132-149 | Chunk `q` goes to slot `first + q`. Writing completes iff every vector encodes; then each slot holds its chunk's lines in order. Other slots' input files and all output files are untouched. |
| `Executor.WriteInputsError` | circuitsim/simulators.py:132-149 | The error writing the chunks stops at is the first error among all the vectors, in order. |
| `Executor.RunSlots` | circuitsim/simulators.py:151-165 | Every slot runs on its own input file. A successful run replaces the slot's output file; a failed one leaves it. The call succeeds iff every run does, and otherwise names the lowest failing slot. |
| `Executor.ParseSlots` | circuitsim/simulators.py:200-215 | A slot with no output file makes the parse raise. |
| `Executor.RunAllSlots` | circuitsim/simulators.py:151-165 | A run of slots `0 .. count - 1` leaves the input files alone. It succeeds iff every slot's process does, and a failure names a slot whose process failed. On success each slot's output file is its process's response. |
| `Executor.ParseSlotsInOrder` | circuitsim/simulators.py:200-215 | Order-preserving aggregation: the result is the parse of slot `p`'s lines, then slot `p + 1`'s, and so on, in file order. |
| `Executor.ExecuteAsWritten` | circuitsim/simulators.py:129-165 | As written: zero processes divide by zero, and no vectors is a zero range step. A negative count with enough vectors writes nothing and runs slot 0 alone; the call succeeds iff that run does. On success every slot `0 .. num_processes - 1` has an output file. |
| `Executor.ExecuteAsWrittenOutcome` | circuitsim/simulators.py:129-165 | As written, with a positive count and some vectors: an encoding error is the first one among the vectors and touches no output file. Otherwise every slot is run, the call succeeds iff every slot's process does, and a failure names a slot whose process failed. A slot that got no chunk keeps the input file it had. On success every slot's output file is its process's response to its input file. |
| `Executor.PipelineAsWritten` | circuitsim/simulation.py:104-114 | As written, the parse reads all `num_processes` slots, including ones that got no chunk in this call. |
| `Executor.StaleSlotLeaks` | circuitsim/simulators.py:155 | Five vectors over four processes, with slot 3 holding an input file from an earlier call: as written, seven results come back; corrected, five. |
| `Executor.Execute` | circuitsim/simulators.py:129-165 | Corrected: zero processes divide by zero. No vectors is a zero range step. An encoding error is the first one among the vectors, and leaves every output file untouched. With every vector encodable, a failure can only be a failed slot below `num_processes`. A negative count with enough vectors does nothing. A success reports `1 .. num_processes` slots run, each with an output file. |
| `Executor.Pipeline` | circuitsim/simulation.py:104-114 | Corrected: errors of execution propagate. Otherwise the result is the parse of exactly the slots this call ran, in slot order. |
| `Executor.SlotLinesRespond` | circuitsim/simulators.py:200-215 | After a line-by-line simulator has run, the slots' output lines together are the responses to the encoded vectors, in vector order. |
| `Executor.PipelineInOrder` | tests/test_simulation.py:25-32 | Order preservation: with at least one process, the result is the parse of the simulator's responses to the encoded vectors, in the order given. This holds whatever the working directory held before. |
| `Executor.PipelineAgreesWhenSlotsFilled` | circuitsim/simulators.py:151-165 | When the chunks fill every slot, the as-written and corrected pipelines agree. |
| `Codegen.Uniquify` | circuitsim/codegen.py:5-8 | The result is not in the list. A name not in the list is returned unchanged. The result always extends the name. It terminates for any suffixes. |
| `Codegen.UniquifyFirstFree` | circuitsim/codegen.py:5-8 | The result is the first name of the retry sequence not in the list: every earlier retry was taken. |
| `Codegen.UniquifyLoop` | circuitsim/codegen.py:5-8 | The `while` loop terminates, and agrees with `Uniquify`: fresh, unchanged when already fresh, an extension of the name. |
| `Codegen.HelperNames` | circuitsim/codegen.py:34-63 | Every helper identifier differs from every port and extends its base name. `ret` keeps its own name when no port is called `ret`. |
| `Codegen.ConnectionsAppend` | circuitsim/codegen.py:46 | The connection list of `inputs + outputs` is the inputs' list and the outputs' list joined by one separator. |
| `Codegen.ConnectionsConnectEvery` | circuitsim/codegen.py:45-47 | Every port appears as `.p(p)` in the instance connections. |
| `Codegen.InputRangeWidth` | circuitsim/codegen.py:53 | For at least one input, the register range reads `[len(inputs)-1:0]`, which is `len(inputs)` bits wide. |
| `Codegen.RenderDeclaresRegister` | circuitsim/codegen.py:52-58 | Every testbench, for any simulator, declares the input register and assigns it, split, onto the input wires. |
| `Codegen.RegisterWidth` | circuitsim/codegen.py:53-58 | For at least one input, the register is declared `reg [len(inputs)-1:0]`, whose upper bound reads back as `len(inputs) - 1`, so the register is `len(inputs)` bits wide. The split lists the inputs joined by `, ` in `inputs` order. |
| `Codegen.GenerateTestbench` | circuitsim/codegen.py:11-128 | Corrected: a C++ driver is produced iff the simulator is Verilator. |
| `Codegen.RequestTestbenches` | circuitsim/codegen.py:11-128 | For one call, both testbenches instantiate the circuit with every port connected, inputs first. Both come with a C++ driver iff the simulator is Verilator. They are the same unless a port is named `ret`. |
| `Codegen.GenerateTestbenchAsWritten` | circuitsim/codegen.py:11-128 | As written: a C++ driver is produced iff the simulator is Verilator. |
| `Codegen.RenderScans` | circuitsim/codegen.py:118-119 | For simulators other than Verilator, the testbench reads each vector with a scan statement that assigns its status to the given target. |
| `Codegen.RenderInstantiates` | circuitsim/codegen.py:45-50 | The testbench instantiates the circuit with every port connected, and declares the status integer. |
| `Codegen.TestbenchIsFresh` | circuitsim/codegen.py:49-50 | Corrected: the status integer is no port. The testbench declares it, and outside Verilator the scan status goes to it. |
| `Codegen.AsWrittenScansIntoPort` | circuitsim/codegen.py:119 | As written, with a port called `ret`: the declared integer got another name, and the scan status still goes to `ret`, the port. |
| `Codegen.AsWrittenAgreesWithoutRetPort` | circuitsim/codegen.py:49 | With no port called `ret`, the as-written and corrected testbenches are the same text. |
| `Session.New` | circuitsim/simulation.py:20-55 | An unknown simulator raises first, a cyclic circuit next. A failed construction touches no directory. A new session is uninitialized and holds the sorted ports. With no directory given, it creates one temporary directory with prefix `circuitsim_<name>_` and starts with no files. With a directory given, it makes that directory, uses it, and sees the files already in it. |
| `Session.Drop` | circuitsim/simulation.py:57-60 | Only a temporary directory is removed, the one named by the session's location. |
| `Session.NewThenDrop` | circuitsim/simulation.py:44-60 | The finaliser of a new session removes exactly the temporary directory its constructor created. It removes nothing when the caller named the directory. |
| `Session.Initialize` | circuitsim/simulation.py:62-69 | The session records the `generate_testbench` call with its own circuit name, sorted ports and simulator, whether or not compilation succeeds. It becomes initialized iff compilation succeeds. A failure carries the compile log. |
| `Session.InitializeWritesTestbench` | circuitsim/simulation.py:62-65 | The testbench initialisation writes, as written and corrected, instantiates the session's circuit on its inputs then outputs. It has a C++ driver iff the simulator is Verilator. The two versions coincide unless a port is named `ret`. |
| `Session.Prepare` | circuitsim/simulation.py:100-103 | Initialises only when needed; a compile failure raises. After that, Verilator with x-mode raises and nothing else does. Ports, location, simulator and files are unchanged, and an initialized session is left as it is. |
| `Session.SimulateAsWritten` | circuitsim/simulation.py:71-114 | As written: initialises only when needed. A compile failure propagates. Verilator with x-mode raises after initialising and leaves the files alone. Zero processes divide by zero. The ports and location never change. A successful call on an initialized session leaves an output file in every one of the `num_processes` slots. |
| `Session.Simulate` | circuitsim/simulation.py:71-114 | Corrected executor. Initialises only when needed. A compile failure propagates. Verilator with x-mode raises after initialising and leaves the files alone. Zero processes divide by zero. The ports and location never change. |
| `Session.SimulateAgreesWhenSlotsFilled` | circuitsim/simulation.py:104-114 | When the vectors fill all `num_processes` slots, `simulate` as written and corrected give the same session and the same result. |
| `Session.TestSuiteFillsSlots` | tests/test_simulation.py:12-25 | The test suite's calls fill every slot: one process for any non-empty batch, and four processes for its hundred vectors. |
| `Session.NeverRecompiles` | circuitsim/simulation.py:100-101 | An initialized session, as written or corrected, never consults the compiler again and stays initialized. |
| `Session.VerilatorRejectsX` | tests/test_simulation.py:97-100 | A fresh Verilator session asked for x-mode raises, as written and corrected, yet ends up initialized. |
| `Session.SimulateInOrder` | circuitsim/simulation.py:100-114 | For a session already compiled, or compiling now on its first call, the session forwards the sorted inputs to encoding and the sorted outputs to parsing. Corrected, its result is the parse of the responses to the encoded vectors, in vector order. As written, the same holds whenever the vectors fill all `num_processes` slots. |
| `Session.FreshSessionInOrder` | tests/test_simulation.py:20-25 | The first `simulate` right after construction, when compilation passes: the session ends up initialized, and the results are the parse of the responses to the encoded vectors in vector order, for the corrected session and, when the vectors fill every slot, as written. |
| `Session.EchoedLines` | circuitsim/simulators.py:139-142 | Boolean vectors with a key for every input all encode; a pass-through simulator answers each with its own line. |
| `Session.EchoedParse` | circuitsim/simulators.py:199-213 | Parsing each encoded boolean vector with its inputs as the output names gives back every port paired with its bit, in order. |
| `Session.PassThroughReadsBack` | tests/test_simulation.py:25-32 | End to end, as the test suite checks it, including the first call on a session that compiles then: one result per vector, and each result pairs every port with that vector's value, in order. This holds for the corrected session, and for the session as written whenever the vectors fill every slot. |

## Left out

- Compiling and running the simulator (`compile_simulator`, `_run_process`, `subprocess`, the log files). These are external processes; they appear only as a compile `Outcome` and a `Runner`.
- The `multiprocessing.Pool`: the slots run one after another in slot order. The pool's `returncode` branch (simulators.py lines 159-163) is unreachable because `check=True` raises first, so it is not modelled.
- Executor.RunSlots: reports the lowest failing slot. The pool re-raises whichever failure it collects, and the model does not follow the pool's scheduling.
- File system access: input and output files are maps from slot to lines, and directory creation and removal are `Effect` values.
- Partition.CeilDiv: computes `ceil(n / m)` exactly. The source divides in floating point, which is exact for any realistic vector count.
- Codec.MissingNames: lists the missing names in `inputs` order. Python joins them in set order, which is unspecified.
- Text.LowerChar: lower-cases ASCII only. Python's `str.lower` covers all of Unicode, which matters only for accepting `"X"`.
- Executor.ParseSlots: its own contract says only that a missing file raises. The full content is stated by `Executor.ParseSlotsInOrder`.
- Executor.PipelineInOrder: requires at least one process and a simulator that answers each line independently. A negative process count with enough vectors returns `[]` (stated by `Executor.Execute`).
- Session.Initialize: requires an uninitialized session. Its only caller, `simulate`, checks that first.
- Session.Simulate: composes the corrected `Executor.Pipeline`, not the code as written. The code as written is `Session.SimulateAsWritten`. The two differ only when a slot gets no chunk and still holds an input file from an earlier call (`Executor.StaleSlotLeaks`).
- Codec.EncodeVector: raises the corrected message `Codec.MissingMessage`. The code as written raises the constant text of `Codec.MissingMessageAsWritten`.
- Session.SimulateAsWritten: encodes with `Codec.EncodeVector`, so a missing input raises the corrected message text. Everything else follows the code.
- Codec.ConvertValue: other numeric types equal to 0 or 1 (`Fraction`, `Decimal`, NumPy scalars) are accepted by the code too. A `complex` equal to 0 or 1 passes the membership test and then raises `TypeError` in `int(v)`; the model has no such value. The model has only `bool`, `int`, `float` and `str`, and treats any other object as unequal to 0 and 1.
- `natsorted`, `circuitgraph` (`is_cyclic`, `to_file`) and `uuid4` are foreign code; they are parameters or fields.
- Writing the netlist (`cg.to_file`) and writing `tb.v`/`tb.cpp` are not modelled; the testbench texts are returned instead.
- The semantics of the Verilator C++ driver and of the generated Verilog, and the three-valued gate evaluation, belong to the simulator.
- Python dict order: a vector is a sequence of distinct keys in insertion order.

## Findings

| source | as written | input that shows it | evidently intended | confidence | as-written member | corrected member |
|---|---|---|---|---|---|---|
| circuitsim/simulators.py:147-149 | The missing-input message is a plain string, not an f-string. It reads literally `'{missing_inputs}'`, so the names computed and truncated on lines 144-146 never reach it. | Any vector lacking an input. | The message names the missing inputs, truncated to 20 characters. | not executed | `Codec.MissingMessageAsWritten` with `Codec.MissingMessageAsWrittenIgnoresNames` | `Codec.MissingMessage` with `Codec.MissingMessageNamesInputs` |
| circuitsim/simulators.py:155 | All `num_processes` slots are run, and line 201 parses all of them, though fewer chunks may have been written. A slot without a chunk in this call re-runs an input file left by an earlier call, and its lines join the result. | Vectors 1..5 over 4 processes, with slot 3's input file holding two lines from before: seven results instead of five. | Run and parse only the slots given a chunk, so the result has one entry per vector in order. | not executed | `Executor.PipelineAsWritten` with `Executor.StaleSlotLeaks` | `Executor.Pipeline` with `Executor.PipelineInOrder` |
| circuitsim/codegen.py:119 | The scan status is assigned to the literal `ret`, not to the fresh name declared on line 50. | Any circuit with a port named `ret`, simulated with Icarus Verilog or VCS: the testbench assigns to the port's wire and never uses the declared integer. | Assign the status to the uniquified integer. | not executed | `Codegen.GenerateTestbenchAsWritten` with `Codegen.AsWrittenScansIntoPort` | `Codegen.GenerateTestbench` with `Codegen.TestbenchIsFresh` |

=== FILE: codec.dfy ===
/** The value codec of `circuitsim/simulators.py`: logic values to the
    characters of an input line, and output lines back to logic values. */
module Codec {
  import opened Types
  import opened Text

  /** The values `_convert_value` accepts, written out independently of it:
      booleans, the integers 0 and 1, the floats equal to them, the strings found inside `"01"`
      (the empty string and `"01"` among them), and in x-mode `"x"`/`"X"`. */
  predicate Accepted(v: Value, allowX: bool)
  {
    match v
    case Bool(_) => true
    case Int(i) => i == 0 || i == 1
    case Float(f) => f == 0.0 || f == 1.0
    case Str(s) => s in {"", "0", "1", "01"} || (allowX && s in {"x", "X"})
    case Other => false
  }

  /** `_convert_value(v, allow_x)`. The membership test `v in "01"` is a
      substring test, so `""` and `"01"` pass through unchanged. The list
      test compares with `==`, so the floats 0.0 and 1.0 pass as 0 and 1. In x-mode
      a value that is neither a string nor 0/1 reaches `v.lower()` and
      raises AttributeError rather than ValueError. */
  function ConvertValue(v: Value, allowX: bool): (r: Result<string>)
    ensures r.Ok? <==> Accepted(v, allowX)
    ensures r == Ok("1") <==> v in {Bool(true), Int(1), Float(1.0), Str("1")}
    ensures r == Ok("0") <==> v in {Bool(false), Int(0), Float(0.0), Str("0")}
    ensures r == Ok("x") <==> allowX && v in {Str("x"), Str("X")}
    ensures r.Ok? ==> r.value in {"", "0", "1", "01", "x"}
    ensures r.Ok? && v.Str? && v.s !in {"x", "X"} ==> r.value == v.s
    ensures r.Err? && allowX && !v.Str? ==> r.error == NoLowerMethod(v)
    ensures r.Err? && !(allowX && !v.Str?) ==> r.error == UnknownInputValue(v)
  {
    SubstringsOfBits(if v.Str? then v.s else "");
    match v
    case Bool(b) => Ok(if b then "1" else "0")
    case Int(i) =>
      if i == 0 || i == 1 then Ok(if i == 1 then "1" else "0")
      else if allowX then Err(NoLowerMethod(v))
      else Err(UnknownInputValue(v))
    case Float(f) =>
      if f == 0.0 || f == 1.0 then Ok(if f == 1.0 then "1" else "0")
      else if allowX then Err(NoLowerMethod(v))
      else Err(UnknownInputValue(v))
    case Str(s) =>
      if IsSubstring(s, "01") then Ok(s)
      else if allowX && Lower(s) == "x" then (LowerIsX(s); Ok(Lower(s)))
      else (LowerIsX(s); Err(UnknownInputValue(v)))
    case Other =>
      if allowX then Err(NoLowerMethod(v)) else Err(UnknownInputValue(v))
  }

  /** Only `"x"` and `"X"` lower-case to `"x"`. */
  lemma LowerIsX(s: string)
    ensures Lower(s) == "x" <==> s in {"x", "X"}
  {
    if Lower(s) == "x" {
      assert |s| == 1 && LowerChar(s[0]) == 'x';
      assert s == [s[0]];
    }
  }

  /** The truth value of an accepted value whose conversion is one digit. */
  function Truth(v: Value): bool
  {
    v in {Bool(true), Int(1), Float(1.0), Str("1")}
  }

  /** `_convert_values(values, allow_x)`: every value converted in dict
      order; the first one that fails raises. */
  function ConvertValues(d: seq<(string, Value)>, allowX: bool): (r: Result<seq<(string, string)>>)
    ensures r.Ok? <==> forall i :: 0 <= i < |d| ==> ConvertValue(d[i].1, allowX).Ok?
    ensures r.Ok? ==> (|r.value| == |d|
      && forall i :: 0 <= i < |d| ==>
           r.value[i] == (d[i].0, ConvertValue(d[i].1, allowX).value))
    ensures r.Err? ==>
      exists i :: 0 <= i < |d| && ConvertValue(d[i].1, allowX) == Err(r.error)
        && forall j :: 0 <= j < i ==> ConvertValue(d[j].1, allowX).Ok?
  {
    if d == [] then Ok([])
    else
      match ConvertValue(d[0].1, allowX)
      case Err(e) => Err(e)
      case Ok(c) =>
        var tail := d[1..];
        match ConvertValues(tail, allowX)
        case Err(e) =>
          ghost var i :| 0 <= i < |tail|
            && (forall j :: 0 <= j < i ==> ConvertValue(tail[j].1, allowX).Ok?)
            && ConvertValue(tail[i].1, allowX) == Err(e);
          assert ConvertValue(d[i + 1].1, allowX) == Err(e);
          Err(e)
        case Ok(rest) =>
          Ok([(d[0].0, c)] + rest)
  }

  /** The input names that have no key in the vector, each once, in the
      order of `inputs` (Python joins them in set order, which is
      unspecified). */
  function MissingNames(inputs: seq<string>, keys: set<string>): (r: seq<string>)
    ensures forall n :: n in r <==> n in inputs && n !in keys
    ensures forall i, j :: 0 <= i < j < |r| ==> r[i] != r[j]
  {
    if inputs == [] then []
    else
      var last := inputs[|inputs| - 1];
      var rest := MissingNames(inputs[..|inputs| - 1], keys);
      assert inputs == inputs[..|inputs| - 1] + [last];
      if last in keys || last in inputs[..|inputs| - 1] then rest else rest + [last]
  }

  /** Cuts a name list longer than 20 characters to its first 17 and
      `"..."`. */
  function Truncate(s: string): (r: string)
    ensures |r| <= 20
    ensures |s| <= 20 ==> r == s
    ensures |s| > 20 ==> |r| == 20 && r[..17] == s[..17] && r[17..] == "..."
  {
    if |s| > 20 then s[..17] + "..." else s
  }

  const MissingPrefix: string := "Value not provided for inputs '"

  /** The message of the missing-input error as the code evidently means it:
      the missing names, comma-separated and truncated, between quotes. */
  function MissingMessage(names: seq<string>): (msg: string)
    ensures MissingPrefix <= msg && msg[|msg| - 1] == '\''
    ensures |msg| <= |MissingPrefix| + 21
    ensures |Join(", ", names)| <= 20 ==> forall k :: 0 <= k < |names| ==> IsSubstring(names[k], msg)
  {
    var msg := MissingPrefix + Truncate(Join(", ", names)) + "'";
    MessageHoldsNames(names, msg);
    msg
  }

  /** A short name list survives into the message whole, so every name
      in it can be found there. */
  lemma MessageHoldsNames(names: seq<string>, msg: string)
    requires msg == MissingPrefix + Truncate(Join(", ", names)) + "'"
    ensures |Join(", ", names)| <= 20 ==> forall k :: 0 <= k < |names| ==> IsSubstring(names[k], msg)
  {
    var j := Join(", ", names);
    if |j| <= 20 {
      assert IsSubstring(j, msg) by {
        assert j <= msg[|MissingPrefix|..];
      }
      forall k | 0 <= k < |names|
        ensures IsSubstring(names[k], msg)
      {
        JoinContains(", ", names, k);
        SubstringTrans(names[k], j, msg);
      }
    }
  }

  /** The message as written: the string is not an f-string, so it is the
      same text whatever is missing and the truncation above is dead. */
  function MissingMessageAsWritten(names: seq<string>): string
  {
    "Value not provided for inputs '{missing_inputs}'"
  }

  /** The as-written message says nothing about which inputs are missing. */
  lemma MissingMessageAsWrittenIgnoresNames(a: seq<string>, b: seq<string>)
    ensures MissingMessageAsWritten(a) == MissingMessageAsWritten(b)
  {
  }

  /** The corrected message tells apart any two short name lists. */
  lemma MissingMessageNamesInputs(a: seq<string>, b: seq<string>)
    requires |Join(", ", a)| <= 20 && |Join(", ", b)| <= 20
    requires Join(", ", a) != Join(", ", b)
    ensures MissingMessage(a) != MissingMessage(b)
  {
    var ma, mb := MissingMessage(a), MissingMessage(b);
    assert ma[|MissingPrefix|..|ma| - 1] == Join(", ", a);
    assert mb[|MissingPrefix|..|mb| - 1] == Join(", ", b);
  }

  /** The converted values of `inputs`, concatenated in `inputs` order. */
  function JoinColumns(inputs: seq<string>, conv: seq<(string, string)>): (line: string)
    requires forall p :: p in inputs ==> p in Keys(conv)
  {
    if inputs == [] then ""
    else Lookup(conv, inputs[0]) + JoinColumns(inputs[1..], conv)
  }

  /** One line of a slot's input file (`simulators.py`, the body of the
      loop over a chunk): all values converted first, then the converted
      values read in `inputs` order; a missing key raises with the names of
      every missing input. */
  function EncodeVector(inputs: seq<string>, d: Dict<Value>, allowX: bool): (r: Result<string>)
    ensures ConvertValues(d, allowX).Err? ==> r == Err(ConvertValues(d, allowX).error)
    ensures ConvertValues(d, allowX).Ok? && (exists p :: p in inputs && p !in Keys(d)) ==>
      r == Err(MissingInputs(MissingMessage(MissingNames(inputs, Keys(d)))))
    ensures r.Ok? <==> (forall p :: p in inputs ==> p in Keys(d))
                       && forall i :: 0 <= i < |d| ==> ConvertValue(d[i].1, allowX).Ok?
  {
    match ConvertValues(d, allowX)
    case Err(e) => Err(e)
    case Ok(conv) =>
      assert Keys(conv) == Keys(d) by {
        assert forall i :: 0 <= i < |d| ==> conv[i].0 == d[i].0;
      }
      if forall p :: p in inputs ==> p in Keys(d) then Ok(JoinColumns(inputs, conv))
      else Err(MissingInputs(MissingMessage(MissingNames(inputs, Keys(d)))))
  }

  /** Reading a converted dict gives the conversion of the original value. */
  lemma {:induction false} LookupConverted(d: Dict<Value>, allowX: bool, p: string)
    requires ConvertValues(d, allowX).Ok?
    requires p in Keys(d)
    ensures p in Keys(ConvertValues(d, allowX).value)
    ensures ConvertValue(Lookup(d, p), allowX).Ok?
    ensures Lookup(ConvertValues(d, allowX).value, p) == ConvertValue(Lookup(d, p), allowX).value
  {
    var conv := ConvertValues(d, allowX).value;
    var i :| 0 <= i < |d| && d[i] == (p, Lookup(d, p));
    assert conv[i] == (p, ConvertValue(d[i].1, allowX).value);
    assert p in Keys(conv);
    var j :| 0 <= j < |conv| && conv[j] == (p, Lookup(conv, p));
    assert d[j].0 == p;
    assert i == j;
  }

  /** Positional reading of `Concat`: each input contributes exactly its
      converted value, so one-character values give one column per input. */
  lemma {:induction false} ConcatColumns(inputs: seq<string>, conv: seq<(string, string)>)
    requires forall p :: p in inputs ==> p in Keys(conv)
    requires forall p :: p in inputs ==> |Lookup(conv, p)| == 1
    ensures |JoinColumns(inputs, conv)| == |inputs|
    ensures forall i :: 0 <= i < |inputs| ==> JoinColumns(inputs, conv)[i] == Lookup(conv, inputs[i])[0]
  {
    if inputs != [] {
      ConcatColumns(inputs[1..], conv);
      assert forall i :: 1 <= i < |inputs| ==> inputs[i] == inputs[1..][i - 1];
    }
  }

  /** Fixed-width encoding: when the value of every input converts to one
      character the line has one character per input, in `inputs` order.
      Keys that are no input may convert to anything the converter accepts. */
  lemma {:induction false} EncodeFixedWidth(inputs: seq<string>, d: Dict<Value>, allowX: bool)
    requires EncodeVector(inputs, d, allowX).Ok?
    requires forall i :: 0 <= i < |d| && d[i].0 in inputs ==> |ConvertValue(d[i].1, allowX).value| == 1
    ensures |EncodeVector(inputs, d, allowX).value| == |inputs|
    ensures forall i :: 0 <= i < |inputs| ==>
      inputs[i] in Keys(d) &&
      EncodeVector(inputs, d, allowX).value[i] == ConvertValue(Lookup(d, inputs[i]), allowX).value[0]
  {
    var conv := ConvertValues(d, allowX).value;
    forall p | p in inputs
      ensures p in Keys(conv) && |Lookup(conv, p)| == 1
      ensures Lookup(conv, p) == ConvertValue(Lookup(d, p), allowX).value
    {
      LookupConverted(d, allowX, p);
      var i :| 0 <= i < |d| && d[i] == (p, Lookup(d, p));
    }
    ConcatColumns(inputs, conv);
  }

  /** The substring quirk: a value `""` is accepted and the line comes out
      one character short of the input count. */
  lemma EmptyValueShortensLine()
    ensures EncodeVector(["a", "b"], [("a", Str("")), ("b", Bool(true))], false) == Ok("1")
  {
    var d: Dict<Value> := [("a", Str("")), ("b", Bool(true))];
    assert "" <= "01"[0..];
    assert ConvertValue(Str(""), false) == Ok("");
    assert ConvertValue(Bool(true), false) == Ok("1");
    var conv := ConvertValues(d, false).value;
    assert conv == [("a", ""), ("b", "1")];
    assert Keys(d) == {"a", "b"};
    assert Lookup(conv, "a") == "";
    assert Lookup(conv, "b") == "1";
    assert JoinColumns(["b"], conv) == "1";
    assert JoinColumns(["a", "b"], conv) == "1";
  }

  /** The alphabet an output line must keep to after stripping: `0`/`1`,
      and in x-mode also `x` in either case (it is lower-cased first). */
  predicate InAlphabet(t: string, allowX: bool)
  {
    forall i :: 0 <= i < |t| ==>
      t[i] == '0' || t[i] == '1' || (allowX && (t[i] == 'x' || t[i] == 'X'))
  }

  /** One decoded output character: `bool(int(c))` outside x-mode, the
      lower-cased character in x-mode. */
  function Decode(c: char, allowX: bool): Out
  {
    if allowX then Sym(LowerChar(c)) else Bit(c == '1')
  }

  /** The lines of one output file as `parse_simulation_output` reads them:
      strip, check the alphabet (after lower-casing in x-mode), then pair
      the characters with `outputs` as `zip` does, stopping at the
      shorter of the two. */
  function ParseLine(outputs: seq<string>, line: string, allowX: bool): (r: Result<seq<(string, Out)>>)
    ensures r.Ok? <==> InAlphabet(Strip(line), allowX)
    ensures r.Err? ==> r.error == UnknownOutputValue(line)
    ensures r.Ok? ==> |r.value| == Min(|outputs|, |Strip(line)|)
    ensures r.Ok? ==> forall i :: 0 <= i < |r.value| ==>
      r.value[i] == (outputs[i], Decode(Strip(line)[i], allowX))
    ensures r.Ok? && !allowX ==> forall i :: 0 <= i < |r.value| ==>
      r.value[i].1 == Bit(Strip(line)[i] == '1')
    ensures r.Ok? && allowX ==> forall i :: 0 <= i < |r.value| ==>
      r.value[i].1.Sym? && r.value[i].1.sym in {'0', '1', 'x'}
  {
    var t := Strip(line);
    if allowX then
      var u := Lower(t);
      if forall i :: 0 <= i < |u| ==> u[i] in {'0', '1', 'x'} then
        Ok(seq(Min(|outputs|, |u|), i requires 0 <= i < Min(|outputs|, |u|) => (outputs[i], Sym(u[i]))))
      else
        assert !InAlphabet(t, allowX) by {
          var i :| 0 <= i < |u| && u[i] !in {'0', '1', 'x'};
        }
        Err(UnknownOutputValue(line))
    else if forall i :: 0 <= i < |t| ==> t[i] in {'0', '1'} then
      Ok(seq(Min(|outputs|, |t|), i requires 0 <= i < Min(|outputs|, |t|) => (outputs[i], Bit(t[i] == '1'))))
    else
      Err(UnknownOutputValue(line))
  }

  function Min(a: int, b: int): int
  {
    if a < b then a else b
  }

  /** A line with no whitespace at either end strips to itself. */
  lemma {:induction false} StripNoSpace(s: string)
    requires forall i :: 0 <= i < |s| ==> !IsSpace(s[i])
    ensures Strip(s) == s
  {
    assert LeadingSpaces(s) == 0;
    assert s[0..] == s;
    assert TrailingSpaces(s) == 0;
  }

  /** What a port reads back as: its truth value outside x-mode, its
      converted character in x-mode. */
  function Expected(v: Value, allowX: bool): Out
  {
    if allowX then Sym(if Truth(v) then '1' else if v in {Str("x"), Str("X")} then 'x' else '0')
    else Bit(Truth(v))
  }
}

/** The codec's round trip: encoding a vector and parsing the line back. */
module CodecRoundTrip {
  import opened Types
  import opened Text
  import opened Codec

  /** The characters of an encoded line decode, one per port, to what
      each port's value should read back as. */
  lemma {:induction false} EncodedColumns(ports: seq<string>, d: Dict<Value>, allowX: bool)
    requires EncodeVector(ports, d, allowX).Ok?
    requires forall i :: 0 <= i < |d| && d[i].0 in ports ==> |ConvertValue(d[i].1, allowX).value| == 1
    ensures forall p :: p in ports ==> p in Keys(d)
    ensures |EncodeVector(ports, d, allowX).value| == |ports|
    ensures forall i :: 0 <= i < |ports| ==>
      var c := EncodeVector(ports, d, allowX).value[i];
      (c == '0' || c == '1' || (allowX && c == 'x'))
      && Decode(c, allowX) == Expected(Lookup(d, ports[i]), allowX)
  {
    var line := EncodeVector(ports, d, allowX).value;
    EncodeFixedWidth(ports, d, allowX);
    forall i | 0 <= i < |ports|
      ensures line[i] == '0' || line[i] == '1' || (allowX && line[i] == 'x')
      ensures Decode(line[i], allowX) == Expected(Lookup(d, ports[i]), allowX)
    {
      var v := Lookup(d, ports[i]);
      var j :| 0 <= j < |d| && d[j] == (ports[i], v);
      assert |ConvertValue(v, allowX).value| == 1;
      DecodeConverted(v, allowX);
    }
  }

  /** A line of exactly one alphabet character per port parses to the
      ports paired with the decoded characters. */
  lemma {:induction false} ParseExactLine(ports: seq<string>, line: string, allowX: bool)
    requires |line| == |ports|
    requires forall i :: 0 <= i < |line| ==>
      line[i] == '0' || line[i] == '1' || (allowX && line[i] == 'x')
    ensures ParseLine(ports, line, allowX).Ok?
    ensures |ParseLine(ports, line, allowX).value| == |ports|
    ensures forall i :: 0 <= i < |ports| ==>
      ParseLine(ports, line, allowX).value[i] == (ports[i], Decode(line[i], allowX))
  {
    StripNoSpace(line);
    assert InAlphabet(Strip(line), allowX);
  }

  /** Round trip of the codec: a vector whose values over `ports` each
      convert to one character, encoded and parsed back with the same port
      list, gives one entry per port holding that port's value again,
      decoded as the parse decodes it: the truth value outside x-mode,
      `'0'`/`'1'`/`'x'` in x-mode. */
  lemma {:induction false} RoundTrip(ports: seq<string>, d: Dict<Value>, allowX: bool)
    requires EncodeVector(ports, d, allowX).Ok?
    requires forall i :: 0 <= i < |d| && d[i].0 in ports ==> |ConvertValue(d[i].1, allowX).value| == 1
    ensures forall p :: p in ports ==> p in Keys(d)
    ensures ParseLine(ports, EncodeVector(ports, d, allowX).value, allowX).Ok?
    ensures |ParseLine(ports, EncodeVector(ports, d, allowX).value, allowX).value| == |ports|
    ensures forall i :: 0 <= i < |ports| ==>
      ParseLine(ports, EncodeVector(ports, d, allowX).value, allowX).value[i]
        == (ports[i], Expected(Lookup(d, ports[i]), allowX))
  {
    EncodedColumns(ports, d, allowX);
    ParseExactLine(ports, EncodeVector(ports, d, allowX).value, allowX);
  }

  /** A one-character conversion decodes to what `Expected` says. */
  lemma {:induction false} DecodeConverted(v: Value, allowX: bool)
    requires ConvertValue(v, allowX).Ok? && |ConvertValue(v, allowX).value| == 1
    ensures ConvertValue(v, allowX).value[0] in {'0', '1', 'x'}
    ensures Decode(ConvertValue(v, allowX).value[0], allowX) == Expected(v, allowX)
  {
    var c := ConvertValue(v, allowX).value;
    assert c in {"0", "1", "x"};
    if c == "1" { assert Truth(v); }
    else if c == "0" { assert !Truth(v) && v !in {Str("x"), Str("X")}; }
    else { assert !Truth(v) && allowX && v in {Str("x"), Str("X")}; }
  }

  /** The round trip for the boolean vectors of the test suite: every port
      reads back, at its own index, as its boolean. */
  lemma {:induction false} BoolRoundTrip(ports: seq<string>, d: Dict<Value>)
    requires forall p :: p in ports ==> p in Keys(d)
    requires forall i :: 0 <= i < |d| ==> d[i].1.Bool?
    ensures EncodeVector(ports, d, false).Ok?
    ensures ParseLine(ports, EncodeVector(ports, d, false).value, false).Ok?
    ensures |ParseLine(ports, EncodeVector(ports, d, false).value, false).value| == |ports|
    ensures forall i :: 0 <= i < |ports| ==>
      ParseLine(ports, EncodeVector(ports, d, false).value, false).value[i]
        == (ports[i], Bit(Lookup(d, ports[i]).b))
  {
    forall i | 0 <= i < |d|
      ensures ConvertValue(d[i].1, false).Ok? && |ConvertValue(d[i].1, false).value| == 1
    {
      assert d[i].1 == Bool(d[i].1.b);
    }
    RoundTrip(ports, d, false);
    forall i | 0 <= i < |ports|
      ensures Expected(Lookup(d, ports[i]), false) == Bit(Lookup(d, ports[i]).b)
    {
      var j :| 0 <= j < |d| && d[j] == (ports[i], Lookup(d, ports[i]));
      assert Lookup(d, ports[i]) == Bool(Lookup(d, ports[i]).b);
    }
  }
}

=== FILE: codegen.dfy ===
/** `circuitsim/codegen.py`: fresh identifiers for the testbench and the
    testbench text itself. The random `uuid4` suffixes are a parameter:
    `tokens(base)(i)` is the suffix drawn on the `i`-th retry while making
    `base` fresh. Writing the files is left out; the texts are returned. */
module Codegen {
  import opened Types
  import opened Text

  /** The length of the longest name in `l`. */
  function MaxLen(l: seq<string>): (n: nat)
    ensures forall i :: 0 <= i < |l| ==> |l[i]| <= n
  {
    if l == [] then 0
    else
      var rest := MaxLen(l[1..]);
      assert forall i :: 1 <= i < |l| ==> l[i] == l[1..][i - 1];
      if |l[0]| > rest then |l[0]| else rest
  }

  /** `_uniquify(s, l)` from its `i`-th retry on: append `"_" + token` until
      the name is not in `l`. Every retry makes the name longer, and no
      name longer than all of `l` is in `l`, so the loop ends. */
  function Uniquify(s: string, l: seq<string>, token: nat -> string, i: nat): (r: string)
    ensures r !in l
    ensures s !in l ==> r == s
    ensures s <= r
    decreases MaxLen(l) + 1 - |s|
  {
    if s in l then
      var s' := s + "_" + token(i);
      assert s <= s';
      Uniquify(s', l, token, i + 1)
    else s
  }

  /** The name after `k` retries starting at retry `i`. */
  function Candidate(s: string, token: nat -> string, i: nat, k: nat): string
  {
    if k == 0 then s else Candidate(s, token, i, k - 1) + "_" + token(i + k - 1)
  }

  lemma {:induction false} CandidateShift(s: string, token: nat -> string, i: nat, k: nat)
    ensures Candidate(s + "_" + token(i), token, i + 1, k) == Candidate(s, token, i, k + 1)
  {
    if k > 0 {
      CandidateShift(s, token, i, k - 1);
    }
  }

  /** Every name tried in the first `k` retries from `i` is in `l`. */
  predicate AllTaken(s: string, l: seq<string>, token: nat -> string, i: nat, k: nat)
  {
    forall k': nat :: k' < k ==> Candidate(s, token, i, k') in l
  }

  /** `_uniquify` returns the first name in its retry sequence that is not
      in `l`: every name it tried before is in `l`. */
  lemma {:induction false} UniquifyFirstFree(s: string, l: seq<string>, token: nat -> string, i: nat)
    ensures exists k: nat :: Uniquify(s, l, token, i) == Candidate(s, token, i, k) && AllTaken(s, l, token, i, k)
    decreases MaxLen(l) + 1 - |s|
  {
    if s in l {
      var s' := s + "_" + token(i);
      UniquifyFirstFree(s', l, token, i + 1);
      var k: nat :| Uniquify(s', l, token, i + 1) == Candidate(s', token, i + 1, k) && AllTaken(s', l, token, i + 1, k);
      CandidateShift(s, token, i, k);
      forall k': nat | k' < k + 1
        ensures Candidate(s, token, i, k') in l
      {
        if k' > 0 {
          CandidateShift(s, token, i, k' - 1);
          assert Candidate(s', token, i + 1, k' - 1) in l;
        }
      }
      assert Uniquify(s, l, token, i) == Candidate(s, token, i, k + 1);
      assert AllTaken(s, l, token, i, k + 1);
    } else {
      assert Uniquify(s, l, token, i) == Candidate(s, token, i, 0);
      assert AllTaken(s, l, token, i, 0);
    }
  }

  /** The `while` loop of `_uniquify` as written, retry by retry. */
  method UniquifyLoop(s: string, l: seq<string>, token: nat -> string) returns (r: string)
    ensures r !in l
    ensures s !in l ==> r == s
    ensures s <= r
    ensures r == Uniquify(s, l, token, 0)
  {
    r := s;
    var i: nat := 0;
    while r in l
      invariant s <= r
      invariant Uniquify(r, l, token, i) == Uniquify(s, l, token, 0)
      decreases MaxLen(l) + 1 - |r|
    {
      r := r + "_" + token(i);
      i := i + 1;
    }
  }

  /** The identifiers the testbench declares besides the ports. */
  datatype Names = Names(
    tick: string, firstSim: string, ret: string, inputVector: string,
    infile: string, outfile: string, infilePointer: string, outfilePointer: string)

  /** Every helper identifier, each made fresh against the ports
      `inputs + outputs`. */
  function HelperNames(ports: seq<string>, tokens: string -> nat -> string): (n: Names)
    ensures n.tick !in ports && n.firstSim !in ports && n.ret !in ports && n.inputVector !in ports
    ensures n.infile !in ports && n.outfile !in ports && n.infilePointer !in ports && n.outfilePointer !in ports
    ensures "tick" <= n.tick && "first_sim" <= n.firstSim && "ret" <= n.ret && "input_vector" <= n.inputVector
    ensures "infile" <= n.infile && "outfile" <= n.outfile
    ensures "infile_pointer" <= n.infilePointer && "outfile_pointer" <= n.outfilePointer
    ensures "ret" !in ports ==> n.ret == "ret"
  {
    Names(
      Uniquify("tick", ports, tokens("tick"), 0),
      Uniquify("first_sim", ports, tokens("first_sim"), 0),
      Uniquify("ret", ports, tokens("ret"), 0),
      Uniquify("input_vector", ports, tokens("input_vector"), 0),
      Uniquify("infile", ports, tokens("infile"), 0),
      Uniquify("outfile", ports, tokens("outfile"), 0),
      Uniquify("infile_pointer", ports, tokens("infile_pointer"), 0),
      Uniquify("outfile_pointer", ports, tokens("outfile_pointer"), 0))
  }

  /** The generated files: the Verilog testbench, and for Verilator the
      C++ driver that toggles the clock. */
  datatype Testbench = Testbench(verilog: string, driver: Option<string>)

  function Wire(p: string): string { "  wire " + p + ";" }

  function Connection(p: string): string { "    ." + p + "(" + p + ")" }

  /** One `wire` line per port, then a blank line. */
  function Wires(ports: seq<string>): string
  {
    Join("\n", Each(Wire, ports)) + "\n\n"
  }

  /** The named port connections of the instance, comma-separated. */
  function Connections(ports: seq<string>): string
  {
    Join(",\n", Each(Connection, ports))
  }

  /** The connection list of two runs of ports is the two lists joined by
      one separator: every port is connected, in order. */
  lemma ConnectionsAppend(a: seq<string>, b: seq<string>)
    requires a != [] && b != []
    ensures Connections(a + b) == Connections(a) + ",\n" + Connections(b)
  {
    EachAppend(Connection, a, b);
    JoinAppend(",\n", Each(Connection, a), Each(Connection, b));
  }

  /** Every port is connected to the net of the same name. */
  lemma ConnectionsConnectEvery(ports: seq<string>, k: nat)
    requires k < |ports|
    ensures IsSubstring("    ." + ports[k] + "(" + ports[k] + ")", Connections(ports))
  {
    JoinContains(",\n", Each(Connection, ports), k);
  }

  function Instance(name: string, ports: seq<string>): string
  {
    "  " + name + " " + name + "_inst(\n" + Connections(ports) + "\n  );\n\n"
  }

  /** The index range of the input register: `[len(inputs)-1:0]`. */
  function InputRange(width: nat): string
  {
    "[" + IntToDecimal(width - 1) + ":0]"
  }

  /** For at least one input, the register's range reads back as
      `[width - 1:0]`, which Verilog makes `width` bits wide. */
  lemma InputRangeWidth(width: nat)
    requires width >= 1
    ensures InputRange(width) == "[" + NatToDecimal(width - 1) + ":0]"
    ensures DecimalValue(NatToDecimal(width - 1)) + 1 == width
  {
    DecimalRoundTrip(width - 1);
  }

  /** The input register, `len(inputs)` bits wide. */
  function RegisterDeclaration(inputs: seq<string>, n: Names): string
  {
    "  reg " + InputRange(|inputs|) + " " + n.inputVector + ";\n\n"
  }

  /** The input register split onto the input wires, first input first. */
  function InputSplit(inputs: seq<string>, n: Names): string
  {
    "  assign {" + Join(", ", inputs) + "} = " + n.inputVector + ";\n\n"
  }

  /** The declarations, one entry per statement: the status integer, the
      input register, its split onto the input wires, the file names and
      the file handles. */
  function DeclarationParts(inputs: seq<string>, n: Names): seq<string>
  {
    [
      "  integer " + n.ret + ";\n\n",
      RegisterDeclaration(inputs, n),
      InputSplit(inputs, n),
      "  reg [999:0] " + n.infile + ";\n",
      "  reg [999:0] " + n.outfile + ";\n\n",
      "  integer " + n.infilePointer + ";\n",
      "  integer " + n.outfilePointer + ";\n\n"]
  }

  function Declarations(inputs: seq<string>, n: Names): string
  {
    Concat(DeclarationParts(inputs, n))
  }

  function Header(name: string, n: Names, verilator: bool): string
  {
    if verilator then
      Concat(["module " + name + "_tb(" + n.tick + ");\n\n", "  input " + n.tick + ";\n", "  reg " + n.firstSim + ";\n\n"])
    else "module tb;\n\n"
  }

  function Initial(n: Names): string
  {
    Concat([
      "  initial begin\n",
      "    if (!$value$plusargs(\"input_file=%s\", " + n.infile + ")) begin\n",
      "      $display(\"Error opening input file\");\n",
      "      $finish;\n",
      "  end\n",
      "    if (!$value$plusargs(\"output_file=%s\", " + n.outfile + ")) begin\n",
      "      $display(\"Error opening output file\");\n",
      "      $finish;\n",
      "  end\n",
      "    " + n.infilePointer + " = $fopen(" + n.infile + ", \"r\");\n",
      "    " + n.outfilePointer + " = $fopen(" + n.outfile + ", \"w\");\n"])
  }

  function OutputConcat(outputs: seq<string>): string
  {
    "{" + Join(", ", outputs) + "}"
  }

  /** The clocked read-evaluate-write loop of the Verilator testbench. */
  function ClockedLoop(outputs: seq<string>, n: Names): string
  {
    Concat([
      "    " + n.firstSim + " = 1;\n",
      "  end\n\n",
      "  always@(posedge " + n.tick + ") begin\n",
      "    if (" + n.firstSim + ") begin\n",
      "      " + n.firstSim + " <= 0;\n",
      "    end\n",
      "    else begin\n",
      "      $fdisplay(" + n.outfilePointer + ", \"%b\", " + OutputConcat(outputs) + ");\n",
      "    end\n",
      "    if ($feof(" + n.infilePointer + ")) begin\n",
      "      $fclose(" + n.infilePointer + ");\n",
      "      $fclose(" + n.outfilePointer + ");\n",
      "      $finish;\n",
      "    end\n",
      "    $fscanf(" + n.infilePointer + ", \"%b\\n\", " + n.inputVector + ");\n",
      "  end\n"])
  }

  /** The statement that reads one input vector, assigning the status of
      `$fscanf` to `target`. */
  function ScanStatement(target: string, n: Names): string
  {
    "      " + target + " = $fscanf(" + n.infilePointer + ", \"%b\\n\", " + n.inputVector + ");\n"
  }

  /** The lines of the read-evaluate-write loop of the other simulators,
      with the scan status assigned to `target`. */
  function DelayLoopLines(outputs: seq<string>, n: Names, target: string): (ls: seq<string>)
    ensures |ls| == 9 && ls[3] == ScanStatement(target, n)
  {
    [
      "    " + n.infilePointer + " = $fopen(" + n.infile + ", \"r\");\n",
      "    " + n.outfilePointer + " = $fopen(" + n.outfile + ", \"w\");\n",
      "    while (!$feof(" + n.infilePointer + ")) begin\n",
      ScanStatement(target, n),
      "      #1 $fdisplay(" + n.outfilePointer + ", \"%b\", " + OutputConcat(outputs) + ");\n",
      "    end\n",
      "    $fclose(" + n.infilePointer + ");\n",
      "    $fclose(" + n.outfilePointer + ");\n",
      "  end\n"]
  }

  function Driver(n: Names): string
  {
    Concat([
      "#include \"Vtb.h\"\n",
      "#include \"verilated.h\"\n",
      "#include \"verilated_vcd_c.h\"\n\n",
      "int main(int argc, char **argv, char **env) {\n",
      "  Verilated::commandArgs(argc, argv);\n",
      "  Vtb* top = new Vtb;\n",
      "  while(!Verilated::gotFinish()) {\n",
      "    top->" + n.tick + " = 1;\n",
      "    top->eval();\n",
      "    top->" + n.tick + " = 0;\n",
      "    top->eval();\n",
      "  }\n",
      "}\n"])
  }

  /** The sections of the testbench before the simulator-specific loop. */
  function PrologueParts(name: string, inputs: seq<string>, outputs: seq<string>, n: Names, verilator: bool)
    : (ps: seq<string>)
    ensures |ps| == 6 && ps[3] == Instance(name, inputs + outputs) && ps[4] == Declarations(inputs, n)
  {
    [Header(name, n, verilator), Wires(inputs), Wires(outputs), Instance(name, inputs + outputs),
     Declarations(inputs, n), Initial(n)]
  }

  /** The testbench text with the non-Verilator scan status assigned to
      `target`: prologue, loop, `endmodule`. */
  function Render(name: string, inputs: seq<string>, outputs: seq<string>, simulator: string, n: Names,
                  target: string): Testbench
  {
    var verilator := simulator == "verilator";
    var body := if verilator then ClockedLoop(outputs, n) else Concat(DelayLoopLines(outputs, n, target));
    Testbench(Concat([Concat(PrologueParts(name, inputs, outputs, n, verilator)), body, "endmodule\n"]),
              if verilator then Some(Driver(n)) else None)
  }

  /** `generate_testbench` as written: the scan status goes to the literal
      name `ret`, not to the fresh name declared as `integer`. */
  function GenerateTestbenchAsWritten(name: string, inputs: seq<string>, outputs: seq<string>, simulator: string,
                                      tokens: string -> nat -> string): (tb: Testbench)
    ensures tb.driver.Some? <==> simulator == "verilator"
  {
    Render(name, inputs, outputs, simulator, HelperNames(inputs + outputs, tokens), "ret")
  }

  /** `generate_testbench` corrected: the scan status goes to the declared
      fresh integer. */
  function GenerateTestbench(name: string, inputs: seq<string>, outputs: seq<string>, simulator: string,
                             tokens: string -> nat -> string): (tb: Testbench)
    ensures tb.driver.Some? <==> simulator == "verilator"
  {
    var n := HelperNames(inputs + outputs, tokens);
    Render(name, inputs, outputs, simulator, n, n.ret)
  }

  /** The arguments of one call of `generate_testbench`, with the `uuid4`
      suffixes it will draw. */
  datatype Request = Request(name: string, inputs: seq<string>, outputs: seq<string>, simulator: string,
                             tokens: string -> nat -> string)

  /** The files a request produces. */
  function Generate(req: Request): Testbench
  {
    GenerateTestbench(req.name, req.inputs, req.outputs, req.simulator, req.tokens)
  }

  /** The files the call writes as the code stands. */
  function GenerateAsWritten(req: Request): Testbench
  {
    GenerateTestbenchAsWritten(req.name, req.inputs, req.outputs, req.simulator, req.tokens)
  }

  /** Both versions of a request's testbench instantiate the circuit
      with every port connected, inputs first, and come with a C++ driver
      exactly for Verilator; they coincide unless a port is named `ret`. */
  lemma RequestTestbenches(req: Request)
    ensures var tb := GenerateAsWritten(req);
      && (tb.driver.Some? <==> req.simulator == "verilator")
      && IsSubstring(Instance(req.name, req.inputs + req.outputs), tb.verilog)
    ensures var tb := Generate(req);
      && (tb.driver.Some? <==> req.simulator == "verilator")
      && IsSubstring(Instance(req.name, req.inputs + req.outputs), tb.verilog)
    ensures "ret" !in req.inputs + req.outputs ==> GenerateAsWritten(req) == Generate(req)
  {
    var n := HelperNames(req.inputs + req.outputs, req.tokens);
    RenderInstantiates(req.name, req.inputs, req.outputs, req.simulator, n, "ret");
    RenderInstantiates(req.name, req.inputs, req.outputs, req.simulator, n, n.ret);
    if "ret" !in req.inputs + req.outputs {
      AsWrittenAgreesWithoutRetPort(req.name, req.inputs, req.outputs, req.simulator, req.tokens);
    }
  }

  /** The testbench for any simulator but Verilator reads each vector with
      a scan statement whose status goes to `target`. */
  lemma RenderScans(name: string, inputs: seq<string>, outputs: seq<string>, simulator: string, n: Names,
                    target: string)
    requires simulator != "verilator"
    ensures IsSubstring(ScanStatement(target, n), Render(name, inputs, outputs, simulator, n, target).verilog)
  {
    var ls := DelayLoopLines(outputs, n, target);
    var ps := [Concat(PrologueParts(name, inputs, outputs, n, false)), Concat(ls), "endmodule\n"];
    ConcatContains(ls, 3);
    ConcatContains(ps, 1);
    SubstringTrans(ScanStatement(target, n), Concat(ls), Concat(ps));
  }

  /** The testbench instantiates the circuit with every port connected, and
      declares the fresh status integer. */
  lemma RenderInstantiates(name: string, inputs: seq<string>, outputs: seq<string>, simulator: string,
                           n: Names, target: string)
    ensures IsSubstring(Instance(name, inputs + outputs), Render(name, inputs, outputs, simulator, n, target).verilog)
    ensures IsSubstring("  integer " + n.ret + ";\n\n", Render(name, inputs, outputs, simulator, n, target).verilog)
  {
    var v := simulator == "verilator";
    var pp := PrologueParts(name, inputs, outputs, n, v);
    var body := if v then ClockedLoop(outputs, n) else Concat(DelayLoopLines(outputs, n, target));
    var ps := [Concat(pp), body, "endmodule\n"];
    var text := Render(name, inputs, outputs, simulator, n, target).verilog;
    assert text == Concat(ps);
    ConcatContains(ps, 0);
    ConcatContains(pp, 3);
    SubstringTrans(Instance(name, inputs + outputs), Concat(pp), text);
    ConcatContains(pp, 4);
    SubstringTrans(Declarations(inputs, n), Concat(pp), text);
    ConcatContains(DeclarationParts(inputs, n), 0);
    SubstringTrans("  integer " + n.ret + ";\n\n", Declarations(inputs, n), text);
  }

  /** The declarations section sits inside the testbench text. */
  lemma RenderDeclares(name: string, inputs: seq<string>, outputs: seq<string>, simulator: string,
                       n: Names, target: string)
    ensures IsSubstring(Declarations(inputs, n), Render(name, inputs, outputs, simulator, n, target).verilog)
  {
    var v := simulator == "verilator";
    var pp := PrologueParts(name, inputs, outputs, n, v);
    var body := if v then ClockedLoop(outputs, n) else Concat(DelayLoopLines(outputs, n, target));
    var ps := [Concat(pp), body, "endmodule\n"];
    assert Render(name, inputs, outputs, simulator, n, target).verilog == Concat(ps);
    ConcatContains(ps, 0);
    ConcatContains(pp, 4);
    SubstringTrans(Declarations(inputs, n), Concat(pp), Concat(ps));
  }

  /** The testbench declares the input register and splits it onto the
      input wires; `RegisterWidth` says what the two statements read. */
  lemma RenderDeclaresRegister(name: string, inputs: seq<string>, outputs: seq<string>, simulator: string,
                               n: Names, target: string)
    ensures var text := Render(name, inputs, outputs, simulator, n, target).verilog;
      && IsSubstring(RegisterDeclaration(inputs, n), text)
      && IsSubstring(InputSplit(inputs, n), text)
  {
    var text := Render(name, inputs, outputs, simulator, n, target).verilog;
    RenderDeclares(name, inputs, outputs, simulator, n, target);
    RegisterDeclaredIn(inputs, n, text);
  }

  /** The register declaration reads `reg [len(inputs)-1:0]`, a range
      `len(inputs)` bits wide, and the split lists the inputs in order. */
  lemma RegisterWidth(inputs: seq<string>, n: Names)
    requires |inputs| >= 1
    ensures RegisterDeclaration(inputs, n) == "  reg " + InputRange(|inputs|) + " " + n.inputVector + ";\n\n"
    ensures InputRange(|inputs|) == "[" + NatToDecimal(|inputs| - 1) + ":0]"
    ensures DecimalValue(NatToDecimal(|inputs| - 1)) + 1 == |inputs|
    ensures InputSplit(inputs, n) == "  assign {" + Join(", ", inputs) + "} = " + n.inputVector + ";\n\n"
  {
    InputRangeWidth(|inputs|);
  }

  /** Any text holding the declarations section declares the input
      register and splits it onto the input wires. */
  lemma RegisterDeclaredIn(inputs: seq<string>, n: Names, text: string)
    requires IsSubstring(Declarations(inputs, n), text)
    ensures IsSubstring(RegisterDeclaration(inputs, n), text)
    ensures IsSubstring(InputSplit(inputs, n), text)
  {
    var ds := DeclarationParts(inputs, n);
    ConcatContains(ds, 1);
    SubstringTrans(ds[1], Declarations(inputs, n), text);
    ConcatContains(ds, 2);
    SubstringTrans(ds[2], Declarations(inputs, n), text);
  }

  /** The corrected testbench: the status integer differs from every port,
      the testbench declares it, and for the simulators other than
      Verilator the scan status is assigned to it. */
  lemma TestbenchIsFresh(name: string, inputs: seq<string>, outputs: seq<string>, simulator: string,
                         tokens: string -> nat -> string)
    ensures var n := HelperNames(inputs + outputs, tokens);
      && n.ret !in inputs + outputs
      && IsSubstring("  integer " + n.ret + ";\n\n", GenerateTestbench(name, inputs, outputs, simulator, tokens).verilog)
      && (simulator != "verilator" ==>
            IsSubstring(ScanStatement(n.ret, n), GenerateTestbench(name, inputs, outputs, simulator, tokens).verilog))
  {
    var n := HelperNames(inputs + outputs, tokens);
    RenderInstantiates(name, inputs, outputs, simulator, n, n.ret);
    if simulator != "verilator" {
      RenderScans(name, inputs, outputs, simulator, n, n.ret);
    }
  }

  /** As written, the scan status goes to `ret` even when `ret` is a port
      and the declared integer got a different, fresh name: the testbench
      then assigns to the port's wire. */
  lemma AsWrittenScansIntoPort(name: string, inputs: seq<string>, outputs: seq<string>, simulator: string,
                               tokens: string -> nat -> string)
    requires simulator != "verilator" && "ret" in inputs + outputs
    ensures var n := HelperNames(inputs + outputs, tokens);
      && n.ret != "ret"
      && IsSubstring(ScanStatement("ret", n), GenerateTestbenchAsWritten(name, inputs, outputs, simulator, tokens).verilog)
  {
    var n := HelperNames(inputs + outputs, tokens);
    RenderScans(name, inputs, outputs, simulator, n, "ret");
  }

  /** When no port is called `ret` the literal is the declared name and
      the written testbench is the corrected one. */
  lemma AsWrittenAgreesWithoutRetPort(name: string, inputs: seq<string>, outputs: seq<string>, simulator: string,
                                      tokens: string -> nat -> string)
    requires "ret" !in inputs + outputs
    ensures GenerateTestbenchAsWritten(name, inputs, outputs, simulator, tokens)
         == GenerateTestbench(name, inputs, outputs, simulator, tokens)
  {
  }
}

=== FILE: executor.dfy ===
/** `execute_simulator` and `parse_simulation_output` of
    `circuitsim/simulators.py`: write one input file per chunk, run the
    simulator once per slot, and read the slots' output files back in slot
    order. The line encoder, the line parser and the simulator itself are
    parameters, so the module speaks only about files, slots and order. */
module Executor {
  import opened Types
  import opened Text
  import opened Partition

  /** The per-slot files of the working directory, `input_file_{p}.txt`
      and `output_file_{p}.txt`, each as its list of lines. Files left by
      an earlier call stay until overwritten. */
  datatype WorkDir = WorkDir(inputFiles: map<nat, seq<string>>, outputFiles: map<nat, seq<string>>)

  /** One run of the compiled simulator for a slot (`_run_process`): from
      the slot's input file, if it exists, to the output file it writes, or
      `None` when the process exits non-zero. */
  type Runner = Option<seq<string>> -> Option<seq<string>>

  /** The input file a run of slot `p` finds. */
  function InputOf(dir: WorkDir, p: nat): Option<seq<string>>
  {
    if p in dir.inputFiles then Some(dir.inputFiles[p]) else None
  }

  /** Applies `f` to `xs` in order until the first error: the results so
      far, and the error if there was one. This is both a loop that writes
      one line per vector until a vector raises, and a list comprehension
      that raises at its first bad element. */
  function MapUntilError<A, B>(f: A -> Result<B>, xs: seq<A>): (r: (seq<B>, Option<Error>))
    ensures r.1.None? <==> forall i :: 0 <= i < |xs| ==> f(xs[i]).Ok?
    ensures r.1.None? ==> |r.0| == |xs|
    ensures r.1.Some? ==> |r.0| < |xs| && f(xs[|r.0|]) == Err(r.1.value)
    ensures forall i :: 0 <= i < |r.0| ==> f(xs[i]) == Ok(r.0[i])
  {
    if xs == [] then ([], None)
    else
      match f(xs[0])
      case Err(e) => ([], Some(e))
      case Ok(y) =>
        var rest := MapUntilError(f, xs[1..]);
        assert forall i :: 1 <= i < |xs| ==> xs[i] == xs[1..][i - 1];
        ([y] + rest.0, rest.1)
  }

  /** The list comprehension `[f(x) for x in xs]` where `f` may raise: the
      first error in order, or every result. */
  function MapAll<A, B>(f: A -> Result<B>, xs: seq<A>): (r: Result<seq<B>>)
    ensures r.Ok? <==> forall i :: 0 <= i < |xs| ==> f(xs[i]).Ok?
    ensures r.Ok? ==> |r.value| == |xs| && forall i :: 0 <= i < |xs| ==> r.value[i] == f(xs[i]).value
    ensures r.Err? ==>
      exists i :: 0 <= i < |xs| && f(xs[i]) == Err(r.error) && forall j :: 0 <= j < i ==> f(xs[j]).Ok?
  {
    var (ys, e) := MapUntilError(f, xs);
    if e.Some? then
      assert f(xs[|ys|]) == Err(e.value);
      Err(e.value)
    else Ok(ys)
  }

  /** Mapping two runs one after the other is mapping their concatenation:
      the results are appended, and an error in the first run stops
      everything. */
  lemma {:induction false} MapUntilErrorAppend<A, B>(f: A -> Result<B>, a: seq<A>, b: seq<A>)
    ensures MapUntilError(f, a).1.Some? ==> MapUntilError(f, a + b) == MapUntilError(f, a)
    ensures MapUntilError(f, a).1.None? ==>
      MapUntilError(f, a + b) == (MapUntilError(f, a).0 + MapUntilError(f, b).0, MapUntilError(f, b).1)
    decreases |a|
  {
    if a == [] {
      assert a + b == b;
      assert MapUntilError(f, a) == ([], None);
      assert [] + MapUntilError(f, b).0 == MapUntilError(f, b).0;
    } else if f(a[0]).Err? {
      MapUntilErrorHead(f, a, b);
    } else {
      var y := f(a[0]).value;
      MapUntilErrorAppend(f, a[1..], b);
      assert (a + b)[0] == a[0];
      assert (a + b)[1..] == a[1..] + b;
      MapUntilErrorUnfold(f, a, y);
      MapUntilErrorUnfold(f, a + b, y);
      ConsAppend(y, MapUntilError(f, a[1..]).0, MapUntilError(f, b).0);
    }
  }

  /** An error at the first element stops both runs there. */
  lemma MapUntilErrorHead<A, B>(f: A -> Result<B>, a: seq<A>, b: seq<A>)
    requires a != [] && f(a[0]).Err?
    ensures MapUntilError(f, a + b) == MapUntilError(f, a) == ([], Some(f(a[0]).error))
  {
    assert (a + b)[0] == a[0];
  }

  /** `MapUntilError` past a first element that succeeds. */
  lemma MapUntilErrorUnfold<A, B>(f: A -> Result<B>, xs: seq<A>, y: B)
    requires xs != [] && f(xs[0]) == Ok(y)
    ensures MapUntilError(f, xs).0 == [y] + MapUntilError(f, xs[1..]).0
    ensures MapUntilError(f, xs).1 == MapUntilError(f, xs[1..]).1
  {
  }

  lemma ConsAppend<B>(y: B, p: seq<B>, q: seq<B>)
    ensures [y] + (p + q) == ([y] + p) + q
  {
  }

  lemma MapAllAppend<A, B>(f: A -> Result<B>, a: seq<A>, b: seq<A>)
    ensures MapAll(f, a + b) ==
      match MapAll(f, a)
      case Err(e) => Err(e)
      case Ok(x) =>
        match MapAll(f, b)
        case Err(e) => Err(e)
        case Ok(y) => Ok(x + y)
  {
    MapUntilErrorAppend(f, a, b);
  }

  /** Writes chunk `q` to slot `first + q`, in order, stopping at the first
      chunk holding a vector that cannot be encoded; that chunk's file
      keeps the lines written before the error. */
  function WriteInputs<V>(enc: V -> Result<string>, chunks: seq<seq<V>>, dir: WorkDir, first: nat)
    : (r: (WorkDir, Option<Error>))
    ensures r.0.outputFiles == dir.outputFiles
    ensures r.1.None? <==> forall q :: 0 <= q < |chunks| ==> MapUntilError(enc, chunks[q]).1.None?
    ensures r.1.None? ==> forall p :: first <= p < first + |chunks| ==>
      p in r.0.inputFiles && r.0.inputFiles[p] == MapUntilError(enc, chunks[p - first]).0
    ensures forall p :: (p < first || p >= first + |chunks|) ==>
      (p in r.0.inputFiles <==> p in dir.inputFiles)
      && (p in dir.inputFiles ==> r.0.inputFiles[p] == dir.inputFiles[p])
    decreases |chunks|
  {
    if chunks == [] then (dir, None)
    else
      var (lines, err) := MapUntilError(enc, chunks[0]);
      var d1 := dir.(inputFiles := dir.inputFiles[first := lines]);
      if err.Some? then (d1, err)
      else
        var rest := WriteInputs(enc, chunks[1..], d1, first + 1);
        assert forall q :: 1 <= q < |chunks| ==> chunks[q] == chunks[1..][q - 1];
        rest
  }

  /** Runs slots `p` up to `count - 1` (the pool, or the single run when
      `count` is 1). Every slot runs; a slot whose process fails keeps its
      old output file, and the first failing slot is reported. */
  function RunSlots(run: Runner, dir: WorkDir, p: nat, count: int): (r: (WorkDir, Option<Error>))
    ensures r.0.inputFiles == dir.inputFiles
    ensures forall q :: p <= q < count && run(InputOf(dir, q)).Some? ==>
      q in r.0.outputFiles && r.0.outputFiles[q] == run(InputOf(dir, q)).value
    ensures forall q :: !(p <= q < count && run(InputOf(dir, q)).Some?) ==>
      (q in r.0.outputFiles <==> q in dir.outputFiles)
      && (q in dir.outputFiles ==> r.0.outputFiles[q] == dir.outputFiles[q])
    ensures r.1.None? <==> forall q :: p <= q < count ==> run(InputOf(dir, q)).Some?
    ensures r.1.Some? ==>
      exists q :: p <= q < count && r.1 == Some(ProcessFailed(q)) && run(InputOf(dir, q)).None?
        && forall q' :: p <= q' < q ==> run(InputOf(dir, q')).Some?
    decreases count - p
  {
    if p >= count then (dir, None)
    else
      var out := run(InputOf(dir, p));
      var d1 := if out.Some? then dir.(outputFiles := dir.outputFiles[p := out.value]) else dir;
      assert forall q :: q != p ==> InputOf(d1, q) == InputOf(dir, q);
      assert InputOf(d1, p) == InputOf(dir, p);
      var (d2, err) := RunSlots(run, d1, p + 1, count);
      (d2, if out.None? then Some(ProcessFailed(p)) else err)
  }

  /** `parse_simulation_output` from slot `p` on: each slot's output file
      in slot order, each file in line order; a missing file or a bad line
      raises. */
  function ParseSlots<B>(parse: string -> Result<B>, dir: WorkDir, p: nat, count: int): (r: Result<seq<B>>)
    ensures (exists q :: p <= q < count && q !in dir.outputFiles) ==> r.Err?
    decreases count - p
  {
    if p >= count then Ok([])
    else if p !in dir.outputFiles then Err(OutputFileMissing(p))
    else
      match MapAll(parse, dir.outputFiles[p])
      case Err(e) => Err(e)
      case Ok(v) =>
        match ParseSlots(parse, dir, p + 1, count)
        case Err(e) => Err(e)
        case Ok(rest) => Ok(v + rest)
  }

  /** The output files of slots `p` up to `count - 1`, concatenated in slot
      order. */
  function SlotLines(dir: WorkDir, p: nat, count: int): seq<string>
    requires forall q :: p <= q < count ==> q in dir.outputFiles
    decreases count - p
  {
    if p >= count then [] else dir.outputFiles[p] + SlotLines(dir, p + 1, count)
  }

  /** Order-preserving aggregation: when every slot has an output file,
      the result is the parse of all their lines, slot `p`'s first, then
      slot `p + 1`'s, and so on. */
  lemma {:induction false} ParseSlotsInOrder<B>(parse: string -> Result<B>, dir: WorkDir, p: nat, count: int)
    requires forall q :: p <= q < count ==> q in dir.outputFiles
    ensures ParseSlots(parse, dir, p, count) == MapAll(parse, SlotLines(dir, p, count))
    decreases count - p
  {
    if p < count {
      ParseSlotsInOrder(parse, dir, p + 1, count);
      MapAllAppend(parse, dir.outputFiles[p], SlotLines(dir, p + 1, count));
    }
  }

  /** The first error among the chunks, in slot order, is the first error
      among all the vectors they were cut from. */
  lemma {:induction false} WriteInputsError<V>(enc: V -> Result<string>, cs: seq<seq<V>>, dir: WorkDir, first: nat)
    ensures WriteInputs(enc, cs, dir, first).1 == MapUntilError(enc, Flatten(cs)).1
    decreases |cs|
  {
    if cs != [] {
      MapUntilErrorAppend(enc, cs[0], Flatten(cs[1..]));
      var d1 := dir.(inputFiles := dir.inputFiles[first := MapUntilError(enc, cs[0]).0]);
      WriteInputsError(enc, cs[1..], d1, first + 1);
    }
  }

  /** `execute_simulator` as written: chunk, write the chunks' input files,
      then run EVERY slot `0 .. num_processes - 1` (only slot 0 when
      `num_processes <= 1`), whether or not it was given a chunk. */
  function ExecuteAsWritten<V>(enc: V -> Result<string>, vectors: seq<V>, dir: WorkDir, m: int, run: Runner)
    : (r: (WorkDir, Option<Error>))
    ensures m == 0 ==> r.1 == Some(ZeroDivision)
    ensures m != 0 && |vectors| == 0 ==> r.1 == Some(ZeroRangeStep)
    ensures m < 0 && |vectors| >= -m ==>
      r.0.inputFiles == dir.inputFiles && (r.1.None? <==> run(InputOf(dir, 0)).Some?)
    ensures r.1.None? ==> forall q :: 0 <= q < m ==> q in r.0.outputFiles
  {
    match Chunks(vectors, m)
    case Err(e) => (dir, Some(e))
    case Ok(cs) =>
      var (d1, e1) := WriteInputs(enc, cs, dir, 0);
      WriteInputsError(enc, cs, dir, 0);
      if e1.Some? then (d1, e1)
      else
        var x := RunSlots(run, d1, 0, if m > 1 then m else 1);
        RunAllSlots(run, d1, if m > 1 then m else 1, x);
        x
  }

  /** The outcome of the written executor with at least one process and
      one vector: an encoding error is the first among the vectors and
      runs nothing; otherwise every slot runs, the call succeeds iff every
      slot's process does, a failure names a failed slot, a slot that got
      no chunk keeps the input file it had, and on success every slot's
      output file is its process's response to its input file. */
  lemma ExecuteAsWrittenOutcome<V>(enc: V -> Result<string>, vectors: seq<V>, dir: WorkDir, m: int, run: Runner)
    requires m > 0 && |vectors| > 0
    ensures var r := ExecuteAsWritten(enc, vectors, dir, m, run);
      MapAll(enc, vectors).Err? ==> r.1 == Some(MapAll(enc, vectors).error) && r.0.outputFiles == dir.outputFiles
    ensures var r := ExecuteAsWritten(enc, vectors, dir, m, run);
      MapAll(enc, vectors).Ok? ==>
        && (r.1.None? <==> forall q :: 0 <= q < m ==> run(InputOf(r.0, q)).Some?)
        && (r.1.Some? ==> r.1.value.ProcessFailed? && r.1.value.slot < m && run(InputOf(r.0, r.1.value.slot)).None?)
        && (forall p :: p >= |Chunks(vectors, m).value| ==> InputOf(r.0, p) == InputOf(dir, p))
        && (r.1.None? ==> forall q :: 0 <= q < m ==>
              q in r.0.outputFiles && run(InputOf(r.0, q)) == Some(r.0.outputFiles[q]))
  {
    var cs := Chunks(vectors, m).value;
    WriteInputsError(enc, cs, dir, 0);
    var (d1, e1) := WriteInputs(enc, cs, dir, 0);
    if e1.None? {
      RunAllSlots(run, d1, m, RunSlots(run, d1, 0, m));
    }
  }

  /** What a run of the slots `0 .. count - 1` leaves, in terms of the
      input files it ran on: those files are unchanged, the run succeeds
      iff every slot's process does, a failure names a slot whose process
      failed, and on success every slot's output file is its response. */
  lemma RunAllSlots(run: Runner, dir: WorkDir, count: nat, x: (WorkDir, Option<Error>))
    requires x == RunSlots(run, dir, 0, count)
    ensures forall p :: InputOf(x.0, p) == InputOf(dir, p)
    ensures x.1.None? <==> forall q :: 0 <= q < count ==> run(InputOf(x.0, q)).Some?
    ensures x.1.Some? ==> x.1.value.ProcessFailed? && x.1.value.slot < count && run(InputOf(x.0, x.1.value.slot)).None?
    ensures x.1.None? ==> forall q :: 0 <= q < count ==>
      q in x.0.outputFiles && run(InputOf(x.0, q)) == Some(x.0.outputFiles[q])
  {
    assert forall p :: InputOf(x.0, p) == InputOf(dir, p);
  }

  /** `execute_simulator` followed by `parse_simulation_output` with the
      same `num_processes`, as written: the parse reads every slot
      `0 .. num_processes - 1`. */
  function PipelineAsWritten<V, B>(enc: V -> Result<string>, parse: string -> Result<B>, vectors: seq<V>,
                                   dir: WorkDir, m: int, run: Runner): (r: (WorkDir, Result<seq<B>>))
    ensures ExecuteAsWritten(enc, vectors, dir, m, run).1.Some? ==>
      r.1 == Err(ExecuteAsWritten(enc, vectors, dir, m, run).1.value)
    ensures r.0 == ExecuteAsWritten(enc, vectors, dir, m, run).0
    ensures ExecuteAsWritten(enc, vectors, dir, m, run).1.None? ==>
      r.1 == MapAll(parse, SlotLines(ExecuteAsWritten(enc, vectors, dir, m, run).0, 0, m))
  {
    var x := ExecuteAsWritten(enc, vectors, dir, m, run);
    if x.1.Some? then (x.0, Err(x.1.value))
    else
      ParseSlotsInOrder(parse, x.0, 0, m);
      (x.0, ParseSlots(parse, x.0, 0, m))
  }

  /** `execute_simulator` corrected: only the slots that received a chunk
      in this call are run, and their number is handed on to the parse. */
  function Execute<V>(enc: V -> Result<string>, vectors: seq<V>, dir: WorkDir, m: int, run: Runner)
    : (r: (WorkDir, Result<nat>))
    ensures m == 0 ==> r.1 == Err(ZeroDivision)
    ensures m != 0 && |vectors| == 0 ==> r.1 == Err(ZeroRangeStep)
    ensures m > 0 && |vectors| > 0 && MapAll(enc, vectors).Err? ==>
      r.1 == Err(MapAll(enc, vectors).error) && r.0.outputFiles == dir.outputFiles
    ensures m > 0 && |vectors| > 0 && MapAll(enc, vectors).Ok? && r.1.Err? ==>
      r.1.error.ProcessFailed? && r.1.error.slot < m
    ensures m < 0 && |vectors| >= -m ==> r == (dir, Ok(0))
    ensures r.1.Ok? && m > 0 ==> 0 < r.1.value <= m
    ensures r.1.Ok? ==> forall q :: 0 <= q < r.1.value ==> q in r.0.outputFiles
  {
    match Chunks(vectors, m)
    case Err(e) => (dir, Err(e))
    case Ok(cs) =>
      var (d1, e1) := WriteInputs(enc, cs, dir, 0);
      WriteInputsError(enc, cs, dir, 0);
      if e1.Some? then (d1, Err(e1.value))
      else
        var (d2, e2) := RunSlots(run, d1, 0, |cs|);
        (d2, if e2.Some? then Err(e2.value) else Ok(|cs|))
  }

  /** `simulate`'s two steps with the correction: the parse reads exactly
      the slots this call ran. */
  function Pipeline<V, B>(enc: V -> Result<string>, parse: string -> Result<B>, vectors: seq<V>,
                          dir: WorkDir, m: int, run: Runner): (r: (WorkDir, Result<seq<B>>))
    ensures Execute(enc, vectors, dir, m, run).1.Err? ==> r.1 == Err(Execute(enc, vectors, dir, m, run).1.error)
    ensures r.0 == Execute(enc, vectors, dir, m, run).0
    ensures Execute(enc, vectors, dir, m, run).1.Ok? ==>
      r.1 == MapAll(parse, SlotLines(Execute(enc, vectors, dir, m, run).0, 0, Execute(enc, vectors, dir, m, run).1.value))
  {
    var x := Execute(enc, vectors, dir, m, run);
    if x.1.Err? then (x.0, Err(x.1.error))
    else
      ParseSlotsInOrder(parse, x.0, 0, x.1.value);
      (x.0, ParseSlots(parse, x.0, 0, x.1.value))
  }

  /** A simulator that answers every input line on its own: the model of
      a combinational circuit evaluated once per vector. */
  ghost predicate LineWise(run: Runner, eval: string -> string)
  {
    forall lines :: run(Some(lines)) == Some(Each(eval, lines))
  }

  /** The output files of the slots `p ..` of a finished run hold the
      responses to the encoded vectors of chunks `p ..`, so their
      concatenation is the responses to the vectors from chunk `p` on. */
  lemma {:induction false} SlotLinesRespond<V>(enc: V -> Result<string>, eval: string -> string, cs: seq<seq<V>>,
                                             dir: WorkDir, p: nat)
    requires p <= |cs|
    requires forall q :: 0 <= q < |cs| ==> MapUntilError(enc, cs[q]).1.None?
    requires forall q :: p <= q < |cs| ==>
      q in dir.outputFiles && dir.outputFiles[q] == Each(eval, MapUntilError(enc, cs[q]).0)
    ensures SlotLines(dir, p, |cs|) == Each(eval, MapUntilError(enc, Flatten(cs[p..])).0)
    decreases |cs| - p
  {
    if p == |cs| {
      assert cs[p..] == [];
    } else {
      SlotLinesRespond(enc, eval, cs, dir, p + 1);
      assert cs[p..][1..] == cs[p + 1..];
      assert Flatten(cs[p..]) == cs[p] + Flatten(cs[p + 1..]);
      MapUntilErrorAppend(enc, cs[p], Flatten(cs[p + 1..]));
      EachAppend(eval, MapUntilError(enc, cs[p]).0, MapUntilError(enc, Flatten(cs[p + 1..])).0);
    }
  }

  /** Order preservation end to end: with at least one process and one
      vector, every vector encodable and a simulator that answers line by
      line, the result is the parse of the responses to the encoded
      vectors in the order the vectors were given, whatever the files left
      in the working directory. */
  lemma {:induction false} PipelineInOrder<V, B>(enc: V -> Result<string>, parse: string -> Result<B>,
                                               vectors: seq<V>, dir: WorkDir, m: int, run: Runner,
                                               eval: string -> string)
    requires m >= 1 && |vectors| >= 1
    requires forall i :: 0 <= i < |vectors| ==> enc(vectors[i]).Ok?
    requires LineWise(run, eval)
    ensures Pipeline(enc, parse, vectors, dir, m, run).1
      == MapAll(parse, Each(eval, MapUntilError(enc, vectors).0))
  {
    var cs := Chunks(vectors, m).value;
    assert Flatten(cs) == vectors;
    WriteInputsError(enc, cs, dir, 0);
    var (d1, e1) := WriteInputs(enc, cs, dir, 0);
    assert e1.None?;
    forall q | 0 <= q < |cs|
      ensures run(InputOf(d1, q)) == Some(Each(eval, MapUntilError(enc, cs[q]).0))
    {
      assert InputOf(d1, q) == Some(MapUntilError(enc, cs[q]).0);
    }
    var (d2, e2) := RunSlots(run, d1, 0, |cs|);
    assert Execute(enc, vectors, dir, m, run) == (d2, Ok(|cs|));
    SlotLinesRespond(enc, eval, cs, d2, 0);
    assert cs[0..] == cs;
  }

  /** Where the corrected and the written pipeline agree: when the
      vectors fill every one of the `num_processes` slots. */
  lemma PipelineAgreesWhenSlotsFilled<V, B>(enc: V -> Result<string>, parse: string -> Result<B>,
                                          vectors: seq<V>, dir: WorkDir, m: int, run: Runner)
    requires m >= 1 && Chunks(vectors, m).Ok? && |Chunks(vectors, m).value| == m
    ensures PipelineAsWritten(enc, parse, vectors, dir, m, run) == Pipeline(enc, parse, vectors, dir, m, run)
  {
  }

  /** The encoder, parser and simulator of `StaleSlotLeaks`: a vector is
      a number written as its parity bit, a line parses to itself, and the
      simulator echoes its input file. */
  function ParityLine(v: int): Result<string>
  {
    Ok(if v % 2 == 1 then "1" else "0")
  }

  function KeepLine(l: string): Result<string>
  {
    Ok(l)
  }

  function Echo(input: Option<seq<string>>): Option<seq<string>>
  {
    input
  }

  /** The vectors, their chunks over four processes, and the working
      directory of `StaleSlotLeaks`. */
  const StaleVectors: seq<int> := [1, 2, 3, 4, 5]

  const StaleChunks: seq<seq<int>> := [[1, 2], [3, 4], [5]]

  const StaleDir: WorkDir := WorkDir(map[3 := ["0", "0"]], map[])

  /** A slot left over from an earlier call leaks into the written
      pipeline: five vectors over four processes fill slots 0 to 2, slot 3
      still holds an input file of two lines, and a simulator that echoes
      its input makes the result seven entries long instead of five. */
  lemma StaleSlotLeaks()
    ensures PipelineAsWritten(ParityLine, KeepLine, StaleVectors, StaleDir, 4, Echo).1
      == Ok(["1", "0", "1", "0", "1", "0", "0"])
    ensures Pipeline(ParityLine, KeepLine, StaleVectors, StaleDir, 4, Echo).1 == Ok(["1", "0", "1", "0", "1"])
  {
    var d1 := StaleWrite();
    var all := StaleRunAll(d1);
    StaleAsWritten(all);
    var some := StaleRunSome(d1);
    StaleCorrected(some);
  }

  lemma StaleAsWritten(o: WorkDir)
    requires ExecuteAsWritten(ParityLine, StaleVectors, StaleDir, 4, Echo) == (o, None)
    requires forall q :: 0 <= q < 4 ==> q in o.outputFiles
    requires o.outputFiles[0] == ["1", "0"] && o.outputFiles[1] == ["1", "0"]
    requires o.outputFiles[2] == ["1"] && o.outputFiles[3] == ["0", "0"]
    ensures PipelineAsWritten(ParityLine, KeepLine, StaleVectors, StaleDir, 4, Echo).1
      == Ok(["1", "0", "1", "0", "1", "0", "0"])
  {
    var lines: seq<string> := ["1", "0", "1", "0", "1", "0", "0"];
    assert SlotLines(o, 0, 4) == lines by {
      StaleLines(o, 4, ["0", "0"]);
    }
    assert MapAll(KeepLine, lines) == Ok(lines) by {
      KeepAll(lines);
    }
    PipelineAsWrittenResult(ParityLine, KeepLine, StaleVectors, StaleDir, 4, Echo, o, lines);
  }

  /** The written pipeline's result, once the run is known. */
  lemma PipelineAsWrittenResult<V, B>(enc: V -> Result<string>, parse: string -> Result<B>, vectors: seq<V>,
                                      dir: WorkDir, m: int, run: Runner, d: WorkDir, lines: seq<string>)
    requires ExecuteAsWritten(enc, vectors, dir, m, run) == (d, None)
    requires forall q :: 0 <= q < m ==> q in d.outputFiles
    requires SlotLines(d, 0, m) == lines
    ensures PipelineAsWritten(enc, parse, vectors, dir, m, run).1 == MapAll(parse, lines)
  {
  }

  /** The written run of the example: all four slots, each echoing its
      input file, slot 3's left from before. */
  lemma StaleRunAll(d1: WorkDir) returns (o: WorkDir)
    requires WriteInputs(ParityLine, StaleChunks, StaleDir, 0) == (d1, None)
    requires InputOf(d1, 0) == Some(["1", "0"]) && InputOf(d1, 1) == Some(["1", "0"])
    requires InputOf(d1, 2) == Some(["1"]) && InputOf(d1, 3) == Some(["0", "0"])
    ensures ExecuteAsWritten(ParityLine, StaleVectors, StaleDir, 4, Echo) == (o, None)
    ensures forall q :: 0 <= q < 4 ==> q in o.outputFiles
    ensures o.outputFiles[0] == ["1", "0"] && o.outputFiles[1] == ["1", "0"]
    ensures o.outputFiles[2] == ["1"] && o.outputFiles[3] == ["0", "0"]
  {
    EchoSlots(d1, 4);
    StaleExecuteAsWritten(d1);
    o := RunSlots(Echo, d1, 0, 4).0;
  }

  /** The corrected run of the example: the three slots given a chunk. */
  lemma StaleRunSome(d1: WorkDir) returns (o: WorkDir)
    requires WriteInputs(ParityLine, StaleChunks, StaleDir, 0) == (d1, None)
    requires InputOf(d1, 0) == Some(["1", "0"]) && InputOf(d1, 1) == Some(["1", "0"])
    requires InputOf(d1, 2) == Some(["1"])
    ensures Execute(ParityLine, StaleVectors, StaleDir, 4, Echo) == (o, Ok(3))
    ensures forall q :: 0 <= q < 3 ==> q in o.outputFiles
    ensures o.outputFiles[0] == ["1", "0"] && o.outputFiles[1] == ["1", "0"] && o.outputFiles[2] == ["1"]
  {
    EchoSlots(d1, 3);
    StaleExecute(d1);
    o := RunSlots(Echo, d1, 0, 3).0;
  }

  lemma StaleExecuteAsWritten(d1: WorkDir)
    requires WriteInputs(ParityLine, StaleChunks, StaleDir, 0) == (d1, None)
    ensures ExecuteAsWritten(ParityLine, StaleVectors, StaleDir, 4, Echo)
      == RunSlots(Echo, d1, 0, 4)
  {
    FewerChunksThanProcesses();
  }

  /** The slot lines of the example: slots 0 to 2 hold the three chunks'
      parity lines, and a fourth slot, if counted, holds `extra`. */
  lemma StaleLines(d: WorkDir, count: nat, extra: seq<string>)
    requires count == 3 || count == 4
    requires forall q :: 0 <= q < count ==> q in d.outputFiles
    requires d.outputFiles[0] == ["1", "0"] && d.outputFiles[1] == ["1", "0"] && d.outputFiles[2] == ["1"]
    requires count == 4 ==> d.outputFiles[3] == extra
    ensures SlotLines(d, 0, count) == ["1", "0", "1", "0", "1"] + (if count == 4 then extra else [])
  {
    assert SlotLines(d, 3, count) == if count == 4 then extra else [];
    assert SlotLines(d, 2, count) == ["1"] + SlotLines(d, 3, count);
  }

  lemma StaleCorrected(o: WorkDir)
    requires Execute(ParityLine, StaleVectors, StaleDir, 4, Echo) == (o, Ok(3))
    requires forall q :: 0 <= q < 3 ==> q in o.outputFiles
    requires o.outputFiles[0] == ["1", "0"] && o.outputFiles[1] == ["1", "0"] && o.outputFiles[2] == ["1"]
    ensures Pipeline(ParityLine, KeepLine, StaleVectors, StaleDir, 4, Echo).1 == Ok(["1", "0", "1", "0", "1"])
  {
    var lines: seq<string> := ["1", "0", "1", "0", "1"];
    StaleLines(o, 3, []);
    KeepAll(lines);
    PipelineResult(ParityLine, KeepLine, StaleVectors, StaleDir, 4, Echo, o, 3, lines);
  }

  /** The corrected pipeline's result, once the run is known. */
  lemma PipelineResult<V, B>(enc: V -> Result<string>, parse: string -> Result<B>, vectors: seq<V>,
                             dir: WorkDir, m: int, run: Runner, d: WorkDir, count: nat, lines: seq<string>)
    requires Execute(enc, vectors, dir, m, run) == (d, Ok(count))
    requires forall q :: 0 <= q < count ==> q in d.outputFiles
    requires SlotLines(d, 0, count) == lines
    ensures Pipeline(enc, parse, vectors, dir, m, run).1 == MapAll(parse, lines)
  {
  }

  lemma StaleExecute(d1: WorkDir)
    requires WriteInputs(ParityLine, StaleChunks, StaleDir, 0) == (d1, None)
    requires RunSlots(Echo, d1, 0, 3).1.None?
    ensures Execute(ParityLine, StaleVectors, StaleDir, 4, Echo)
      == (RunSlots(Echo, d1, 0, 3).0, Ok(3))
  {
    FewerChunksThanProcesses();
  }

  lemma KeepAll(lines: seq<string>)
    ensures MapAll(KeepLine, lines) == Ok(lines)
  {
    var r := MapAll(KeepLine, lines);
    assert r.value == lines;
  }

  lemma StaleWrite() returns (d1: WorkDir)
    ensures WriteInputs(ParityLine, StaleChunks, StaleDir, 0) == (d1, None)
    ensures InputOf(d1, 0) == Some(["1", "0"])
    ensures InputOf(d1, 1) == Some(["1", "0"])
    ensures InputOf(d1, 2) == Some(["1"])
    ensures InputOf(d1, 3) == Some(["0", "0"])
  {
    var cs := StaleChunks;
    assert MapUntilError(ParityLine, cs[0]).0 == ["1", "0"];
    assert MapUntilError(ParityLine, cs[1]).0 == ["1", "0"];
    assert MapUntilError(ParityLine, cs[2]).0 == ["1"];
    d1 := WriteInputs(ParityLine, cs, StaleDir, 0).0;
  }

  lemma EchoSlots(d: WorkDir, count: nat)
    requires forall q :: 0 <= q < count ==> q in d.inputFiles
    ensures RunSlots(Echo, d, 0, count).1.None?
    ensures forall q :: 0 <= q < count ==>
      q in RunSlots(Echo, d, 0, count).0.outputFiles && RunSlots(Echo, d, 0, count).0.outputFiles[q] == d.inputFiles[q]
  {
    assert forall q :: 0 <= q < count ==> Echo(InputOf(d, q)) == Some(d.inputFiles[q]);
  }
}

=== FILE: partition.dfy ===
/** How `execute_simulator` (`circuitsim/simulators.py`) splits the vectors
    into per-process chunks: `k = ceil(len(vectors) / num_processes)` and
    the slices `vectors[i : i + k]` for `i` in `range(0, len(vectors), k)`. */
module Partition {
  import opened Types

  /** `math.ceil(n / m)` for a length `n` and a non-zero `m`, exactly (the
      floating-point division is taken to be exact): the least `k` with
      `k * m >= n` for positive `m`, with `k * m <= n` for negative `m`. */
  function CeilDiv(n: nat, m: int): (k: int)
    requires m != 0
    ensures m > 0 ==> (k - 1) * m < n <= k * m
    ensures m < 0 ==> k * m <= n < (k - 1) * m
  {
    if m > 0 then
      CeilPositive(n, m);
      (n + m - 1) / m
    else
      CeilNegative(n, -m);
      -(n / -m)
  }

  lemma CeilPositive(n: nat, m: int)
    requires m > 0
    ensures ((n + m - 1) / m - 1) * m < n <= ((n + m - 1) / m) * m
  {
    var a := n + m - 1;
    var k := a / m;
    var r := a % m;
    assert a == k * m + r;
    assert (k - 1) * m == k * m - m;
  }

  lemma CeilNegative(n: nat, p: int)
    requires p > 0
    ensures (-(n / p)) * -p <= n < (-(n / p) - 1) * -p
  {
    var q := n / p;
    var r := n % p;
    assert n == q * p + r;
    assert (-q) * -p == q * p;
    assert (-q - 1) * -p == q * p + p;
  }

  /** The sign facts about `ceil(n / m)` that decide which branch of
      `range` runs. */
  lemma CeilDivSign(n: nat, m: int)
    requires m != 0
    ensures m > 0 ==> CeilDiv(n, m) >= 0 && (CeilDiv(n, m) == 0 <==> n == 0)
    ensures m < 0 ==> CeilDiv(n, m) <= 0 && (CeilDiv(n, m) == 0 <==> n < -m)
  {
    var k := CeilDiv(n, m);
    if m > 0 {
      if k > 0 { MulMono(1, k, m); }
    } else {
      if k < 0 { MulMono(1, -k, -m); assert k * m == -k * -m; }
    }
  }

  /** Python's clamped slice `s[i:j]` for `0 <= i`. */
  function Slice<T>(s: seq<T>, i: nat, j: nat): (r: seq<T>)
    ensures i <= |s| && i <= j ==> r == s[i..if j <= |s| then j else |s|]
    ensures i >= |s| || j <= i ==> r == []
  {
    var hi := if j <= |s| then j else |s|;
    if i < hi then s[i..hi] else []
  }

  /** `[vs[i:i+k] for i in range(0, len(vs), k)]` for a positive step. */
  function Slices<T>(vs: seq<T>, k: nat): (cs: seq<seq<T>>)
    requires k > 0
    ensures |cs| == CeilDiv(|vs|, k)
  {
    seq(CeilDiv(|vs|, k), j requires 0 <= j => Slice(vs, j * k, j * k + k))
  }

  /** The list comprehension over `range(0, len(vectors), k)` with
      `k = ceil(len(vectors) / m)`. `m == 0` divides by zero; a step of
      zero (no vectors, or fewer vectors than `-m`) makes `range` raise; a
      negative step gives an empty range. */
  function Chunks<T>(vs: seq<T>, m: int): (r: Result<seq<seq<T>>>)
    ensures m == 0 <==> r == Err(ZeroDivision)
    ensures m != 0 && r.Ok? ==> |r.value| == if CeilDiv(|vs|, m) > 0 then CeilDiv(|vs|, CeilDiv(|vs|, m)) else 0
    ensures r == Err(ZeroRangeStep) <==> m != 0 && (|vs| == 0 || (m < 0 && |vs| < -m))
    ensures m < 0 && |vs| >= -m ==> r == Ok([])
    ensures m > 0 && |vs| > 0 ==> r.Ok? && |r.value| <= m
    ensures r.Ok? ==> Flatten(r.value) == vs || (m < 0 && r.value == [])
    ensures r.Ok? ==> forall j :: 0 <= j < |r.value| ==> r.value[j] != []
    ensures r.Ok? ==> forall j :: 0 <= j < |r.value| - 1 ==> |r.value[j]| == CeilDiv(|vs|, m)
  {
    if m == 0 then Err(ZeroDivision)
    else
      var k := CeilDiv(|vs|, m);
      CeilDivSign(|vs|, m);
      if k == 0 then Err(ZeroRangeStep)
      else if k < 0 then Ok([])
      else
        var cs := Slices(vs, k);
        SlicesShape(vs, k);
        SlicesFlatten(vs, k);
        assert |cs| <= m by { ChunkCountBound(|vs|, m, k); }
        Ok(cs)
  }

  /** The concatenation of a list of lists. */
  function Flatten<T>(ss: seq<seq<T>>): (r: seq<T>)
  {
    if ss == [] then [] else ss[0] + Flatten(ss[1..])
  }

  lemma {:induction false} FlattenAppend<T>(a: seq<seq<T>>, b: seq<seq<T>>)
    ensures Flatten(a + b) == Flatten(a) + Flatten(b)
  {
    if a == [] {
      assert a + b == b;
    } else {
      assert (a + b)[1..] == a[1..] + b;
      FlattenAppend(a[1..], b);
    }
  }

  /** Chunk `j` starts at `j * k`, is non-empty, and is full except
      possibly the last one. */
  lemma SlicesShape<T>(vs: seq<T>, k: nat)
    requires k > 0
    ensures forall j :: 0 <= j < |Slices(vs, k)| ==>
      j * k < |vs| && Slices(vs, k)[j] == vs[j * k .. if j * k + k <= |vs| then j * k + k else |vs|]
    ensures forall j :: 0 <= j < |Slices(vs, k)| ==> Slices(vs, k)[j] != []
    ensures forall j :: 0 <= j < |Slices(vs, k)| - 1 ==> |Slices(vs, k)[j]| == k
  {
    forall j | 0 <= j < |Slices(vs, k)|
      ensures j * k < |vs|
      ensures j < |Slices(vs, k)| - 1 ==> j * k + k <= |vs|
    {
      SliceStart(|vs|, k, j);
    }
  }

  /** Arithmetic behind `SlicesShape`: start `j * k` of chunk `j` lies
      inside the vectors, and a chunk before the last one ends inside them. */
  lemma SliceStart(n: nat, k: nat, j: nat)
    requires k > 0 && j < CeilDiv(n, k)
    ensures j * k < n
    ensures j < CeilDiv(n, k) - 1 ==> j * k + k <= n
  {
    var c := CeilDiv(n, k);
    assert (c - 1) * k < n;
    MulMono(j, c - 1, k);
    if j < c - 1 {
      MulMono(j + 1, c - 1, k);
      assert (j + 1) * k == j * k + k;
    }
  }

  lemma MulMono(a: int, b: int, k: nat)
    requires a <= b
    ensures a * k <= b * k
  {
  }

  /** The first `j` chunks cover exactly the first `j * k` vectors (or all
      of them). */
  lemma {:induction false} SlicesPrefix<T>(vs: seq<T>, k: nat, j: nat)
    requires k > 0 && j <= |Slices(vs, k)|
    ensures Flatten(Slices(vs, k)[..j]) == vs[..if j * k <= |vs| then j * k else |vs|]
  {
    var cs := Slices(vs, k);
    if j > 0 {
      SlicesPrefix(vs, k, j - 1);
      var s := (j - 1) * k;
      assert s + k == j * k;
      SliceStart(|vs|, k, j - 1);
      var t := if j * k <= |vs| then j * k else |vs|;
      assert cs[j - 1] == vs[s..t];
      assert cs[..j] == cs[..j - 1] + [cs[j - 1]];
      FlattenAppend(cs[..j - 1], [cs[j - 1]]);
      assert Flatten([cs[j - 1]]) == cs[j - 1] by {
        assert [cs[j - 1]][1..] == [];
      }
      assert vs[..s] + vs[s..t] == vs[..t];
    }
  }

  /** Partition completeness: the chunks concatenate back to the vectors. */
  lemma SlicesFlatten<T>(vs: seq<T>, k: nat)
    requires k > 0
    ensures Flatten(Slices(vs, k)) == vs
  {
    var cs := Slices(vs, k);
    var c := |cs|;
    SlicesPrefix(vs, k, c);
    assert cs[..c] == cs;
    assert c * k >= |vs|;
  }

  /** With `k = ceil(n / m)`, `ceil(n / k)` chunks number at most `m`. */
  lemma ChunkCountBound(n: nat, m: int, k: int)
    requires m > 0 && k == CeilDiv(n, m) && k > 0
    ensures CeilDiv(n, k) <= m
  {
    var c := CeilDiv(n, k);
    assert (c - 1) * k < n <= k * m;
    if c > m {
      MulMono(m, c - 1, k);
    }
  }

  /** The chunk count can fall short of `m`: five vectors over four
      processes make three chunks of two, two and one. */
  lemma FewerChunksThanProcesses()
    ensures Chunks([1, 2, 3, 4, 5], 4) == Ok([[1, 2], [3, 4], [5]])
  {
    var vs := [1, 2, 3, 4, 5];
    assert CeilDiv(5, 4) == 2;
    assert CeilDiv(5, 2) == 3;
    var cs := Slices(vs, 2);
    assert cs[0] == Slice(vs, 0, 2) == [1, 2];
    assert cs[1] == Slice(vs, 2, 4) == [3, 4];
    assert cs[2] == Slice(vs, 4, 6) == [5];
    assert cs == [[1, 2], [3, 4], [5]];
  }
}

=== FILE: session.dfy ===
/** `CircuitSimulator` of `circuitsim/simulation.py`: a session over one
    circuit that validates its arguments, owns or borrows a working
    directory, compiles the simulator lazily on first use, and forwards
    each batch of vectors to the executor and the parser. */
module Session {
  import opened Types
  import opened Text
  import opened Codec
  import opened CodecRoundTrip
  import opened Partition
  import opened Executor
  import opened Codegen

  /** `available_simulators` in `circuitsim/simulators.py`. */
  const AvailableSimulators: seq<string> := ["iverilog", "verilator", "vcs"]

  /** What the session needs of a `circuitgraph.Circuit`: its name, its
      ports, and whether it has a combinational cycle. */
  datatype Circuit = Circuit(name: string, inputs: seq<string>, outputs: seq<string>, cyclic: bool)

  /** The working directory: a temporary one the session created (and
      owns), or one the caller named. */
  datatype Location = Temporary(prefix: string) | Given(path: string)

  /** What the constructor and the finaliser do to the file system. */
  datatype Effect = CreateTemporary(prefix: string) | MakeDirectory(path: string) | RemoveTemporary(prefix: string)

  type Vector = Dict<Value>

  type OutVector = seq<(string, Out)>

  /** A session. `testbench` is the call of `generate_testbench` made at
      initialisation; `Codegen.Generate` gives the files it wrote. */
  datatype Session = Session(
    simulator: string,
    circuit: Circuit,
    location: Location,
    inputs: seq<string>,
    outputs: seq<string>,
    initialized: bool,
    files: WorkDir,
    testbench: Option<Request>)

  /** The collaborators a call to `simulate` reaches: the outcome of
      compiling, the compiled simulator run on one slot, and the `uuid4`
      suffixes for fresh names. */
  datatype Externals = Externals(compile: Outcome, run: Runner, tokens: string -> nat -> string)

  /** `CircuitSimulator.__init__`. The simulator name is checked first,
      then the circuit; only a session that passed both gets a working
      directory. `sort` is `natsorted`, and `existing` is what a given
      directory already holds. */
  function New(circuit: Circuit, workingDir: Option<string>, simulator: string, sort: seq<string> -> seq<string>,
               existing: WorkDir): (r: (Result<Session>, seq<Effect>))
    ensures r.0 == Err(InvalidSimulator(simulator)) <==> simulator !in AvailableSimulators
    ensures r.0 == Err(CyclicCircuit) <==> simulator in AvailableSimulators && circuit.cyclic
    ensures r.0.Err? <==> r.1 == []
    ensures r.0.Ok? ==> && !r.0.value.initialized
                        && r.0.value.inputs == sort(circuit.inputs)
                        && r.0.value.outputs == sort(circuit.outputs)
                        && (r.0.value.location.Temporary? <==> workingDir.None?)
                        && (workingDir.None? ==> r.0.value.files == WorkDir(map[], map[]))
                        && (workingDir.Some? ==> r.0.value.files == existing)
    ensures r.0.Ok? ==> r.1 == [if workingDir.None? then CreateTemporary(r.0.value.location.prefix)
                                else MakeDirectory(workingDir.value)]
    ensures r.0.Ok? && workingDir.None? ==> r.0.value.location.prefix == "circuitsim_" + circuit.name + "_"
    ensures r.0.Ok? && workingDir.Some? ==> r.0.value.location == Given(workingDir.value)
  {
    if simulator !in AvailableSimulators then (Err(InvalidSimulator(simulator)), [])
    else if circuit.cyclic then (Err(CyclicCircuit), [])
    else
      var location := if workingDir.None? then Temporary("circuitsim_" + circuit.name + "_")
                      else Given(workingDir.value);
      var effect := if workingDir.None? then CreateTemporary(location.prefix) else MakeDirectory(location.path);
      var files := if workingDir.None? then WorkDir(map[], map[]) else existing;
      (Ok(Session(simulator, circuit, location, sort(circuit.inputs), sort(circuit.outputs), false, files, None)),
       [effect])
  }

  /** `CircuitSimulator.__del__`: a temporary directory is removed, a given
      one is left alone. */
  function Drop(s: Session): (effects: seq<Effect>)
    ensures effects != [] <==> s.location.Temporary?
    ensures s.location.Temporary? ==> effects == [RemoveTemporary(s.location.prefix)]
  {
    if s.location.Temporary? then [RemoveTemporary(s.location.prefix)] else []
  }

  /** Construction and teardown match: the finaliser of a new session
      removes exactly the temporary directory its constructor created, and
      removes nothing when the caller named the directory. */
  lemma NewThenDrop(circuit: Circuit, workingDir: Option<string>, simulator: string, sort: seq<string> -> seq<string>,
                    existing: WorkDir)
    requires New(circuit, workingDir, simulator, sort, existing).0.Ok?
    ensures var (r, made) := New(circuit, workingDir, simulator, sort, existing);
      workingDir.None? ==> made == [CreateTemporary(r.value.location.prefix)]
                           && Drop(r.value) == [RemoveTemporary(r.value.location.prefix)]
    ensures var (r, made) := New(circuit, workingDir, simulator, sort, existing);
      workingDir.Some? ==> made == [MakeDirectory(workingDir.value)] && Drop(r.value) == []
  {
  }

  /** `_initialize_simulator`: write the testbench, then compile; only a
      successful compile marks the session initialized. */
  function Initialize(s: Session, ext: Externals): (r: (Session, Option<Error>))
    requires !s.initialized
    ensures r.0.initialized <==> ext.compile.Pass?
    ensures r.1.None? <==> ext.compile.Pass?
    ensures ext.compile.Fail? ==> r.1 == Some(CompilationFailed(ext.compile.log))
    ensures r.0.testbench == Some(Request(s.circuit.name, s.inputs, s.outputs, s.simulator, ext.tokens))
    ensures r.0.files == s.files && r.0.inputs == s.inputs && r.0.outputs == s.outputs
  {
    var s1 := s.(testbench := Some(Request(s.circuit.name, s.inputs, s.outputs, s.simulator, ext.tokens)));
    match ext.compile
    case Fail(log) => (s1, Some(CompilationFailed(log)))
    case Pass => (s1.(initialized := true), None)
  }

  /** The testbench initialisation writes, as written and corrected,
      instantiates the circuit with every sorted port connected, and comes
      with a C++ driver exactly for Verilator; the two coincide unless a
      port is named `ret`. */
  lemma InitializeWritesTestbench(s: Session, ext: Externals)
    requires !s.initialized
    ensures Initialize(s, ext).0.testbench.Some?
    ensures var tb := GenerateAsWritten(Initialize(s, ext).0.testbench.value);
      && (tb.driver.Some? <==> s.simulator == "verilator")
      && IsSubstring(Instance(s.circuit.name, s.inputs + s.outputs), tb.verilog)
    ensures var tb := Generate(Initialize(s, ext).0.testbench.value);
      && (tb.driver.Some? <==> s.simulator == "verilator")
      && IsSubstring(Instance(s.circuit.name, s.inputs + s.outputs), tb.verilog)
    ensures "ret" !in s.inputs + s.outputs ==>
      GenerateAsWritten(Initialize(s, ext).0.testbench.value) == Generate(Initialize(s, ext).0.testbench.value)
  {
    RequestTestbenches(Request(s.circuit.name, s.inputs, s.outputs, s.simulator, ext.tokens));
  }

  /** The line encoder the executor is given: the session's sorted inputs
      and the call's x-mode. */
  function Encoder(inputs: seq<string>, allowX: bool): Vector -> Result<string>
  {
    (v: Vector) => EncodeVector(inputs, v, allowX)
  }

  /** The line parser the output is read with: the session's sorted
      outputs and the same x-mode. */
  function Parser(outputs: seq<string>, allowX: bool): string -> Result<OutVector>
  {
    l => ParseLine(outputs, l, allowX)
  }

  /** The steps of `simulate` before the vectors are touched: initialise
      if needed, then refuse x-mode on Verilator (after initialising). */
  function Prepare(s: Session, allowX: bool, ext: Externals): (r: (Session, Option<Error>))
    ensures r.0.initialized <==> s.initialized || ext.compile.Pass?
    ensures !s.initialized && ext.compile.Fail? ==> r.1 == Some(CompilationFailed(ext.compile.log))
    ensures s.initialized || ext.compile.Pass? ==>
      r.1 == (if s.simulator == "verilator" && allowX then Some(XWithVerilator) else None)
    ensures r.0.inputs == s.inputs && r.0.outputs == s.outputs && r.0.location == s.location
    ensures r.0.files == s.files && r.0.simulator == s.simulator
    ensures s.initialized ==> r.0 == s
  {
    var (s1, err) := if s.initialized then (s, None) else Initialize(s, ext);
    if err.Some? then (s1, err)
    else if s1.simulator == "verilator" && allowX then (s1, Some(XWithVerilator))
    else (s1, None)
  }

  /** `CircuitSimulator.simulate` with the corrected executor: initialise
      if needed, refuse x-mode on Verilator (after initialising), then
      execute and parse only the slots this call gave a chunk. */
  function Simulate(s: Session, vectors: seq<Vector>, m: int, allowX: bool, ext: Externals)
    : (r: (Session, Result<seq<OutVector>>))
    ensures r.0.initialized <==> s.initialized || ext.compile.Pass?
    ensures !s.initialized && ext.compile.Fail? ==> r.1 == Err(CompilationFailed(ext.compile.log))
    ensures (s.initialized || ext.compile.Pass?) && s.simulator == "verilator" && allowX ==>
      r.1 == Err(XWithVerilator) && r.0.files == s.files
    ensures r.0.inputs == s.inputs && r.0.outputs == s.outputs && r.0.location == s.location
    ensures s.initialized ==> r.0.testbench == s.testbench
    ensures m == 0 && (s.initialized || ext.compile.Pass?) && !(s.simulator == "verilator" && allowX) ==>
      r.1 == Err(ZeroDivision)
  {
    var (s1, err) := Prepare(s, allowX, ext);
    if err.Some? then (s1, Err(err.value))
    else
      var x := Pipeline(Encoder(s1.inputs, allowX), Parser(s1.outputs, allowX), vectors, s1.files, m, ext.run);
      (s1.(files := x.0), x.1)
  }

  /** `CircuitSimulator.simulate` as written: after the same preparation,
      `execute_simulator` runs every one of the `num_processes` slots and
      `parse_simulation_output` reads all of them back. */
  function SimulateAsWritten(s: Session, vectors: seq<Vector>, m: int, allowX: bool, ext: Externals)
    : (r: (Session, Result<seq<OutVector>>))
    ensures r.0.initialized <==> s.initialized || ext.compile.Pass?
    ensures !s.initialized && ext.compile.Fail? ==> r.1 == Err(CompilationFailed(ext.compile.log))
    ensures (s.initialized || ext.compile.Pass?) && s.simulator == "verilator" && allowX ==>
      r.1 == Err(XWithVerilator) && r.0.files == s.files
    ensures r.0.inputs == s.inputs && r.0.outputs == s.outputs && r.0.location == s.location
    ensures s.initialized ==> r.0.testbench == s.testbench
    ensures m == 0 && (s.initialized || ext.compile.Pass?) && !(s.simulator == "verilator" && allowX) ==>
      r.1 == Err(ZeroDivision)
    ensures (s.initialized || ext.compile.Pass?) && !(s.simulator == "verilator" && allowX) && m > 0 && r.1.Ok? ==>
      forall q :: 0 <= q < m ==> q in r.0.files.outputFiles
  {
    var (s1, err) := Prepare(s, allowX, ext);
    if err.Some? then (s1, Err(err.value))
    else
      var x := PipelineAsWritten(Encoder(s1.inputs, allowX), Parser(s1.outputs, allowX), vectors, s1.files, m, ext.run);
      (s1.(files := x.0), x.1)
  }

  /** The session as written and the corrected one are the same whenever
      the vectors fill all `num_processes` slots. */
  lemma SimulateAgreesWhenSlotsFilled(s: Session, vectors: seq<Vector>, m: int, allowX: bool, ext: Externals)
    requires m >= 1 && |vectors| >= 1 && |Chunks(vectors, m).value| == m
    ensures SimulateAsWritten(s, vectors, m, allowX, ext) == Simulate(s, vectors, m, allowX, ext)
  {
    var (s1, err) := Prepare(s, allowX, ext);
    if err.None? {
      PipelineAgreesWhenSlotsFilled(Encoder(s1.inputs, allowX), Parser(s1.outputs, allowX), vectors, s1.files, m,
                                    ext.run);
    }
  }

  /** The test suite's calls fill every slot: one process for any
      non-empty batch, and four processes for its hundred vectors. */
  lemma TestSuiteFillsSlots(vectors: seq<Vector>, m: int)
    requires |vectors| >= 1 && (m == 1 || (m == 4 && |vectors| == 100))
    ensures Chunks(vectors, m).Ok? && |Chunks(vectors, m).value| == m
  {
    if m == 1 {
      assert CeilDiv(|vectors|, 1) == |vectors|;
      CeilDivSelf(|vectors|);
    } else {
      assert CeilDiv(100, 4) == 25;
      assert CeilDiv(100, 25) == 4;
    }
  }

  /** One chunk size per vector: `ceil(n / n)` is 1. */
  lemma CeilDivSelf(n: nat)
    requires n >= 1
    ensures CeilDiv(n, n) == 1
  {
    var k := CeilDiv(n, n);
    if k >= 2 {
      assert (k - 1) * n >= n by { MulMono(1, k - 1, n); }
    }
  }

  /** Initialisation happens once: a session that is initialized never
      consults the compiler again, so the outcome of compiling is
      irrelevant to it and it stays initialized. */
  lemma NeverRecompiles(s: Session, vectors: seq<Vector>, m: int, allowX: bool, ext: Externals, compile: Outcome)
    requires s.initialized
    ensures Simulate(s, vectors, m, allowX, ext) == Simulate(s, vectors, m, allowX, ext.(compile := compile))
    ensures Simulate(s, vectors, m, allowX, ext).0.initialized
    ensures SimulateAsWritten(s, vectors, m, allowX, ext)
         == SimulateAsWritten(s, vectors, m, allowX, ext.(compile := compile))
    ensures SimulateAsWritten(s, vectors, m, allowX, ext).0.initialized
  {
  }

  /** A fresh session followed by `simulate` with x-mode on Verilator:
      the call raises, yet the session has been compiled. */
  lemma VerilatorRejectsX(circuit: Circuit, workingDir: Option<string>, sort: seq<string> -> seq<string>,
                          existing: WorkDir, vectors: seq<Vector>, m: int, ext: Externals)
    requires !circuit.cyclic && ext.compile.Pass?
    ensures New(circuit, workingDir, "verilator", sort, existing).0.Ok?
    ensures var s := New(circuit, workingDir, "verilator", sort, existing).0.value;
      Simulate(s, vectors, m, true, ext).1 == Err(XWithVerilator) && Simulate(s, vectors, m, true, ext).0.initialized
    ensures var s := New(circuit, workingDir, "verilator", sort, existing).0.value;
      SimulateAsWritten(s, vectors, m, true, ext).1 == Err(XWithVerilator)
      && SimulateAsWritten(s, vectors, m, true, ext).0.initialized
  {
  }

  /** Order preservation through the session: for a simulator that
      answers line by line, the outputs are the parse, with the sorted
      outputs, of the responses to the vectors encoded over the sorted
      inputs, in the order the vectors were given. */
  lemma {:induction false} SimulateInOrder(s: Session, vectors: seq<Vector>, m: int, allowX: bool, ext: Externals,
                                         eval: string -> string)
    requires (s.initialized || ext.compile.Pass?) && !(s.simulator == "verilator" && allowX)
    requires m >= 1 && |vectors| >= 1
    requires forall i :: 0 <= i < |vectors| ==> EncodeVector(s.inputs, vectors[i], allowX).Ok?
    requires LineWise(ext.run, eval)
    ensures Simulate(s, vectors, m, allowX, ext).1
      == MapAll(Parser(s.outputs, allowX), Each(eval, MapUntilError(Encoder(s.inputs, allowX), vectors).0))
    ensures |Chunks(vectors, m).value| == m ==>
      SimulateAsWritten(s, vectors, m, allowX, ext).1
        == MapAll(Parser(s.outputs, allowX), Each(eval, MapUntilError(Encoder(s.inputs, allowX), vectors).0))
  {
    PipelineInOrder(Encoder(s.inputs, allowX), Parser(s.outputs, allowX), vectors, s.files, m, ext.run, eval);
    if |Chunks(vectors, m).value| == m {
      SimulateAgreesWhenSlotsFilled(s, vectors, m, allowX, ext);
    }
  }

  /** The first `simulate` on a freshly constructed session, as each test
      makes it: compilation passes, and the results come back in vector
      order, the same as for a session that had already been compiled. */
  lemma {:induction false} FreshSessionInOrder(circuit: Circuit, workingDir: Option<string>, simulator: string,
                                             sort: seq<string> -> seq<string>, existing: WorkDir,
                                             vectors: seq<Vector>, m: int, allowX: bool, ext: Externals,
                                             eval: string -> string)
    requires simulator in AvailableSimulators && !circuit.cyclic && ext.compile.Pass?
    requires !(simulator == "verilator" && allowX)
    requires m >= 1 && |vectors| >= 1
    requires forall i :: 0 <= i < |vectors| ==> EncodeVector(sort(circuit.inputs), vectors[i], allowX).Ok?
    requires LineWise(ext.run, eval)
    ensures New(circuit, workingDir, simulator, sort, existing).0.Ok?
    ensures var s := New(circuit, workingDir, simulator, sort, existing).0.value;
      && !s.initialized
      && Simulate(s, vectors, m, allowX, ext).0.initialized
      && Simulate(s, vectors, m, allowX, ext).1
         == MapAll(Parser(sort(circuit.outputs), allowX),
                   Each(eval, MapUntilError(Encoder(sort(circuit.inputs), allowX), vectors).0))
    ensures var s := New(circuit, workingDir, simulator, sort, existing).0.value;
      |Chunks(vectors, m).value| == m ==>
        SimulateAsWritten(s, vectors, m, allowX, ext).1
          == MapAll(Parser(sort(circuit.outputs), allowX),
                    Each(eval, MapUntilError(Encoder(sort(circuit.inputs), allowX), vectors).0))
  {
    var s := New(circuit, workingDir, simulator, sort, existing).0.value;
    SimulateInOrder(s, vectors, m, allowX, ext, eval);
  }

  /** A circuit whose outputs are wired straight to its inputs: the
      simulator writes back each line it reads. */
  function Echoed(l: string): string
  {
    l
  }

  /** The test suite's check, end to end: simulating boolean vectors on a
      circuit that passes its inputs through, with the outputs named as
      the inputs, returns one result per vector, and each result pairs
      every port with that vector's value, at the same index and in the
      same order. */
  lemma {:induction false} PassThroughReadsBack(s: Session, vectors: seq<Vector>, m: int, ext: Externals)
    requires (s.initialized || ext.compile.Pass?) && s.outputs == s.inputs
    requires m >= 1 && |vectors| >= 1
    requires forall i :: 0 <= i < |vectors| ==> forall p :: p in s.inputs ==> p in Keys(vectors[i])
    requires forall i, j :: 0 <= i < |vectors| && 0 <= j < |vectors[i]| ==> vectors[i][j].1.Bool?
    requires LineWise(ext.run, Echoed)
    ensures Simulate(s, vectors, m, false, ext).1.Ok?
    ensures |Simulate(s, vectors, m, false, ext).1.value| == |vectors|
    ensures forall i, j :: 0 <= i < |vectors| && 0 <= j < |s.inputs| ==>
      |Simulate(s, vectors, m, false, ext).1.value[i]| == |s.inputs|
      && Simulate(s, vectors, m, false, ext).1.value[i][j] == (s.inputs[j], Bit(Lookup(vectors[i], s.inputs[j]).b))
    ensures |Chunks(vectors, m).value| == m ==>
      SimulateAsWritten(s, vectors, m, false, ext).1 == Simulate(s, vectors, m, false, ext).1
  {
    var echoed := EchoRun(s, vectors, m, ext);
    EchoedParse(s.inputs, vectors, echoed, Simulate(s, vectors, m, false, ext).1);
    if |Chunks(vectors, m).value| == m {
      SimulateAgreesWhenSlotsFilled(s, vectors, m, false, ext);
    }
  }

  /** A pass-through run of boolean vectors parses the encoded vectors
      themselves. */
  lemma EchoRun(s: Session, vectors: seq<Vector>, m: int, ext: Externals) returns (echoed: seq<string>)
    requires (s.initialized || ext.compile.Pass?) && s.outputs == s.inputs
    requires m >= 1 && |vectors| >= 1
    requires forall i :: 0 <= i < |vectors| ==> forall p :: p in s.inputs ==> p in Keys(vectors[i])
    requires forall i, j :: 0 <= i < |vectors| && 0 <= j < |vectors[i]| ==> vectors[i][j].1.Bool?
    requires LineWise(ext.run, Echoed)
    ensures Simulate(s, vectors, m, false, ext).1 == MapAll(Parser(s.inputs, false), echoed)
    ensures |echoed| == |vectors|
    ensures forall i :: 0 <= i < |vectors| ==>
      EncodeVector(s.inputs, vectors[i], false).Ok? && echoed[i] == EncodeVector(s.inputs, vectors[i], false).value
  {
    echoed := EchoedLines(s.inputs, vectors);
    SimulateInOrder(s, vectors, m, false, ext, Echoed);
  }

  /** Parsing the echoed lines with the inputs as the outputs gives each
      vector back. */
  lemma EchoedParse(inputs: seq<string>, vectors: seq<Vector>, echoed: seq<string>, r: Result<seq<OutVector>>)
    requires forall i, j :: 0 <= i < |vectors| && 0 <= j < |vectors[i]| ==> vectors[i][j].1.Bool?
    requires forall i :: 0 <= i < |vectors| ==> forall p :: p in inputs ==> p in Keys(vectors[i])
    requires |echoed| == |vectors|
    requires forall i :: 0 <= i < |vectors| ==>
      EncodeVector(inputs, vectors[i], false).Ok? && echoed[i] == EncodeVector(inputs, vectors[i], false).value
    requires r == MapAll(Parser(inputs, false), echoed)
    ensures r.Ok? && |r.value| == |vectors|
    ensures forall i, j :: 0 <= i < |vectors| && 0 <= j < |inputs| ==>
      |r.value[i]| == |inputs| && r.value[i][j] == (inputs[j], Bit(Lookup(vectors[i], inputs[j]).b))
  {
    var parse := Parser(inputs, false);
    forall i | 0 <= i < |vectors|
      ensures parse(echoed[i]).Ok?
      ensures |parse(echoed[i]).value| == |inputs|
      ensures forall j :: 0 <= j < |inputs| ==>
        parse(echoed[i]).value[j] == (inputs[j], Bit(Lookup(vectors[i], inputs[j]).b))
    {
      assert forall j :: 0 <= j < |vectors[i]| ==> vectors[i][j].1.Bool?;
      BoolRoundTrip(inputs, vectors[i]);
      assert parse(echoed[i]) == ParseLine(inputs, EncodeVector(inputs, vectors[i], false).value, false);
    }
  }

  /** The lines a pass-through simulator writes for boolean vectors: each
      vector's encoding, in order. */
  lemma EchoedLines(inputs: seq<string>, vectors: seq<Vector>) returns (echoed: seq<string>)
    requires forall i :: 0 <= i < |vectors| ==> forall p :: p in inputs ==> p in Keys(vectors[i])
    requires forall i, j :: 0 <= i < |vectors| && 0 <= j < |vectors[i]| ==> vectors[i][j].1.Bool?
    ensures echoed == Each(Echoed, MapUntilError(Encoder(inputs, false), vectors).0)
    ensures |echoed| == |vectors|
    ensures forall i :: 0 <= i < |vectors| ==>
      EncodeVector(inputs, vectors[i], false).Ok? && echoed[i] == EncodeVector(inputs, vectors[i], false).value
  {
    var enc := Encoder(inputs, false);
    forall i | 0 <= i < |vectors|
      ensures enc(vectors[i]) == EncodeVector(inputs, vectors[i], false)
      ensures EncodeVector(inputs, vectors[i], false).Ok?
    {
      assert forall j :: 0 <= j < |vectors[i]| ==> vectors[i][j].1.Bool?;
      BoolRoundTrip(inputs, vectors[i]);
    }
    echoed := Each(Echoed, MapUntilError(enc, vectors).0);
  }
}

=== FILE: text.dfy ===
/** The string operations the modelled code borrows from Python's `str`. */
module Text {

  /** The characters Python's `str.isspace` accepts, so the ones
      `str.strip()` removes. */
  predicate IsSpace(c: char)
  {
    c == ' ' || ('\t' <= c <= '\r') || ('\U{1c}' <= c <= '\U{1f}')
    || c == '\U{85}' || c == '\U{a0}' || c == '\U{1680}'
    || ('\U{2000}' <= c <= '\U{200a}') || c == '\U{2028}' || c == '\U{2029}'
    || c == '\U{202f}' || c == '\U{205f}' || c == '\U{3000}'
  }

  /** `s[i..j]` is what `s.strip()` keeps: everything outside it is
      whitespace and it neither starts nor ends with whitespace. */
  predicate StripsTo(s: string, i: int, j: int)
  {
    && 0 <= i <= j <= |s|
    && (forall k :: 0 <= k < i ==> IsSpace(s[k]))
    && (forall k :: j <= k < |s| ==> IsSpace(s[k]))
    && (i < j ==> !IsSpace(s[i]) && !IsSpace(s[j - 1]))
  }

  /** `s.strip()`. */
  function Strip(s: string): (r: string)
    ensures exists i, j :: StripsTo(s, i, j) && r == s[i..j]
    ensures |r| <= |s|
  {
    var i := LeadingSpaces(s);
    var j := |s| - TrailingSpaces(s[i..]);
    assert StripsTo(s, i, j);
    s[i..j]
  }

  /** The number of whitespace characters `s` starts with. */
  function LeadingSpaces(s: string): (n: nat)
    ensures n <= |s|
    ensures forall k :: 0 <= k < n ==> IsSpace(s[k])
    ensures n < |s| ==> !IsSpace(s[n])
  {
    if s != [] && IsSpace(s[0]) then 1 + LeadingSpaces(s[1..]) else 0
  }

  /** The number of whitespace characters `s` ends with. */
  function TrailingSpaces(s: string): (n: nat)
    ensures n <= |s|
    ensures forall k :: |s| - n <= k < |s| ==> IsSpace(s[k])
    ensures n < |s| ==> !IsSpace(s[|s| - n - 1])
  {
    if s != [] && IsSpace(s[|s| - 1]) then 1 + TrailingSpaces(s[..|s| - 1]) else 0
  }

  /** ASCII lower-casing, which is all of Python's `str.lower` that can
      matter for the characters `'0'`, `'1'`, `'x'` and `'X'`. */
  function LowerChar(c: char): (r: char)
    ensures 'A' <= c <= 'Z' ==> r as int == c as int + 32
    ensures !('A' <= c <= 'Z') ==> r == c
  {
    if 'A' <= c <= 'Z' then (c as int + 32) as char else c
  }

  function Lower(s: string): (r: string)
    ensures |r| == |s|
    ensures forall i :: 0 <= i < |s| ==> r[i] == LowerChar(s[i])
  {
    seq(|s|, i requires 0 <= i < |s| => LowerChar(s[i]))
  }

  /** `sep.join(parts)`. */
  function Join(sep: string, parts: seq<string>): (r: string)
    ensures parts == [] ==> r == ""
    ensures |parts| == 1 ==> r == parts[0]
  {
    if parts == [] then ""
    else if |parts| == 1 then parts[0]
    else parts[0] + sep + Join(sep, parts[1..])
  }

  /** Joining two non-empty runs of parts puts one separator between the
      two joins. */
  lemma {:induction false} JoinAppend(sep: string, a: seq<string>, b: seq<string>)
    requires a != [] && b != []
    ensures Join(sep, a + b) == Join(sep, a) + sep + Join(sep, b)
  {
    if |a| == 1 {
      assert (a + b)[1..] == b;
    } else {
      assert (a + b)[1..] == a[1..] + b;
      JoinAppend(sep, a[1..], b);
    }
  }

  /** Every part occurs in the joined string. */
  lemma {:induction false} JoinContains(sep: string, parts: seq<string>, k: nat)
    requires k < |parts|
    ensures IsSubstring(parts[k], Join(sep, parts))
  {
    var j := Join(sep, parts);
    if k == 0 {
      assert parts[0] <= j[0..];
    } else {
      JoinContains(sep, parts[1..], k - 1);
      var t := Join(sep, parts[1..]);
      var i :| 0 <= i <= |t| && parts[1..][k - 1] <= t[i..];
      assert j[|parts[0] + sep| + i..] == t[i..];
    }
  }

  /** `f(x)` for each element, in order. */
  function Each(f: string -> string, xs: seq<string>): (r: seq<string>)
    ensures |r| == |xs|
    ensures forall i :: 0 <= i < |xs| ==> r[i] == f(xs[i])
  {
    seq(|xs|, i requires 0 <= i < |xs| => f(xs[i]))
  }

  lemma EachAppend(f: string -> string, a: seq<string>, b: seq<string>)
    ensures Each(f, a + b) == Each(f, a) + Each(f, b)
  {
  }

  /** `"".join(parts)`: the parts one after the other. */
  function Concat(parts: seq<string>): (r: string)
    ensures |parts| == 1 ==> r == parts[0]
  {
    if parts == [] then "" else parts[0] + Concat(parts[1..])
  }

  /** Each part occurs in the concatenation, after all the parts before
      it. */
  lemma {:induction false} ConcatContains(parts: seq<string>, k: nat)
    requires k < |parts|
    ensures IsSubstring(parts[k], Concat(parts))
  {
    var c := Concat(parts);
    if k == 0 {
      assert parts[0] <= c[0..];
    } else {
      ConcatContains(parts[1..], k - 1);
      var t := Concat(parts[1..]);
      var i :| 0 <= i <= |t| && parts[1..][k - 1] <= t[i..];
      assert c[|parts[0]| + i..] == t[i..];
    }
  }

  /** An occurrence inside an occurrence is an occurrence. */
  lemma SubstringTrans(a: string, b: string, c: string)
    requires IsSubstring(a, b) && IsSubstring(b, c)
    ensures IsSubstring(a, c)
  {
    var i :| 0 <= i <= |b| && a <= b[i..];
    var j :| 0 <= j <= |c| && b <= c[j..];
    assert c[j + i..][..|a|] == b[i..][..|a|];
  }

  /** `a in b` for two strings: `a` occurs in `b` as a contiguous run. */
  predicate IsSubstring(a: string, b: string)
  {
    exists i :: 0 <= i <= |b| && a <= b[i..]
  }

  /** The strings found in `"01"`: the empty string among them. */
  lemma SubstringsOfBits(s: string)
    ensures IsSubstring(s, "01") <==> s in {"", "0", "1", "01"}
  {
    var b := "01";
    if s in {"", "0", "1", "01"} {
      if s == "1" { assert s <= b[1..]; } else { assert s <= b[0..]; }
    }
    if IsSubstring(s, b) {
      var i :| 0 <= i <= |b| && s <= b[i..];
      assert s == b[i..][..|s|];
      if |s| == 0 {
        assert s == "";
      } else if i == 0 && |s| == 1 {
        assert s == "0";
      } else if i == 0 {
        assert s == "01";
      } else {
        assert s == "1";
      }
    }
  }

  /** The decimal digits of a natural number, most significant first. */
  function NatToDecimal(n: nat): (r: string)
    ensures r != []
    ensures forall i :: 0 <= i < |r| ==> '0' <= r[i] <= '9'
    decreases n
  {
    var d := ['0' + (n % 10) as char];
    if n < 10 then d else NatToDecimal(n / 10) + d
  }

  /** Python's `str(n)` for an integer. */
  function IntToDecimal(n: int): (r: string)
    ensures n < 0 <==> (r != [] && r[0] == '-')
  {
    if n < 0 then "-" + NatToDecimal(-n) else NatToDecimal(n)
  }

  /** The value of a string of decimal digits. */
  function DecimalValue(s: string): (n: nat)
    requires forall i :: 0 <= i < |s| ==> '0' <= s[i] <= '9'
  {
    if s == [] then 0
    else 10 * DecimalValue(s[..|s| - 1]) + (s[|s| - 1] - '0') as int
  }

  /** Reading back the digits `NatToDecimal` writes gives the number. */
  lemma {:induction false} DecimalRoundTrip(n: nat)
    ensures DecimalValue(NatToDecimal(n)) == n
    decreases n
  {
    var r := NatToDecimal(n);
    if n >= 10 {
      DecimalRoundTrip(n / 10);
      assert r[..|r| - 1] == NatToDecimal(n / 10);
    }
  }
}

=== FILE: types.dfy ===
/** Values that cross the boundary of the simulator interface, and the
    exceptions it raises, as plain datatypes. */
module Types {

  /** A logic value as a caller may put it into an input vector: a Python
      `bool`, an `int`, a `float`, a `str`, or any other object (one that
      equals neither 0 nor 1 and has no `lower` method). */
  datatype Value = Bool(b: bool) | Int(i: int) | Float(f: real) | Str(s: string) | Other

  /** A decoded output value: a boolean outside x-mode, a one-character
      string (`'0'`, `'1'` or `'x'`) in x-mode. */
  datatype Out = Bit(bit: bool) | Sym(sym: char)

  /** The exceptions the modelled code raises, by cause. */
  datatype Error =
    | UnknownInputValue(v: Value)        // ValueError from value conversion
    | NoLowerMethod(v: Value)            // AttributeError: `.lower()` on a non-string
    | MissingInputs(message: string)     // ValueError: a vector lacks an input
    | ZeroDivision                       // `len(vectors) / 0`
    | ZeroRangeStep                      // `range(0, n, 0)`
    | ProcessFailed(slot: nat)           // a simulator run exited non-zero
    | OutputFileMissing(slot: nat)       // no output file for a slot
    | UnknownOutputValue(line: string)   // ValueError: bad simulator output
    | InvalidSimulator(name: string)     // ValueError from the constructor
    | CyclicCircuit                      // ValueError from the constructor
    | CompilationFailed(log: string)     // compilation exited non-zero
    | XWithVerilator                     // ValueError: x-mode on verilator

  datatype Option<+T> = None | Some(value: T)

  datatype Result<+T> = Ok(value: T) | Err(error: Error)

  /** Success or failure of an external step that yields no value. */
  datatype Outcome = Pass | Fail(log: string)

  /** No key occurs twice among the pairs. */
  predicate DistinctKeys<V>(d: seq<(string, V)>)
  {
    forall i, j :: 0 <= i < j < |d| ==> d[i].0 != d[j].0
  }

  /** A Python dict, as its items in insertion order. */
  type Dict<V> = d: seq<(string, V)> | DistinctKeys(d) witness []

  /** The keys of a dict. */
  function Keys<V>(d: seq<(string, V)>): (ks: set<string>)
    ensures forall i :: 0 <= i < |d| ==> d[i].0 in ks
    ensures forall k :: k in ks ==> exists i :: 0 <= i < |d| && d[i].0 == k
  {
    set i | 0 <= i < |d| :: d[i].0
  }

  /** `d[k]` for a key that is present. */
  function Lookup<V>(d: seq<(string, V)>, k: string): (v: V)
    requires k in Keys(d)
    ensures exists i :: 0 <= i < |d| && d[i] == (k, v)
  {
    if d[0].0 == k then d[0].1 else Lookup(d[1..], k)
  }
}
